=== FILE: README.md ===
# Account service credential and session lifecycle, in Dafny

This project models the account pages of an ASP.NET Core job-agency service (ApplicationSecurity): registration, password sign-in with lockout, the two-factor code step, authenticator enrolment, password change, forgotten-password and reset, sign-out, and the status-code page. It also models the request gate the service installs after authentication, the startup purge of the session table, and the audit log service.

The model is functional. A `State` pairs the shared store with one browser's state. The store holds users, password-history rows, session rows and the audit log. The browser holds the authentication principal, the pending two-factor user and the server-side transport session that carries `"SessionId"`. Every page handler is a pure function from a state and a `Request` to the next state and a response. A `Request` carries the path, the clock reading `now` in .NET ticks and the connection facts.

Some things the service reads are supplied as parameters rather than modelled:
- the password-hash check and the TOTP check;
- the reset-token verdict and the CAPTCHA verdict;
- NRIC encryption;
- every fresh GUID, key and hash the service draws.

The Identity library's behaviour is written out from the configured constants: the password validator, the 3-failure / 15-minute lockout counter, and the results of password and two-factor sign-in, change, reset and create.

Files, one module each (except `logout.dfy`, which also holds `StatusCode`):
- **Shared:** `base.dfy` (options, ticks, character classes, case mapping), `entities.dfy` (records, store and browser), `forms.dfy` (data annotations), `html.dfy` (`WebUtility.HtmlEncode` and its inverse).
- **Service parts:** `identity.dfy`, `audit.dfy`, `policy.dfy` (complexity, ages, history), `sessions.dfy`.
- **Gate and pages:** `gate.dfy`, `login.dfy`, `verify2fa.dfy`, `enable2fa.dfy`, `changepassword.dfy`, `recovery.dfy`, `logout.dfy`, `register.dfy`.
- **Cross-page:** `system.dfy` holds the step relation over all pages, the store invariant, and the lemmas that follow a browser across pages.

## Behaviour of the code that the model keeps

These are modelled as the code behaves, and lemmas show the consequences:

- Password-only sign-in stores a session id on the user and in the transport session, but inserts no session row. The request gate demands an active row, so the browser is signed out and sent to `session_expired` on its very next guarded request, the `/Index` it was redirected to included (`System.PasswordLoginIsBouncedByGate`). Only the two-factor path writes a row (`System.CodeLoginPassesGate`, `System.TwoFactorSignInReachesGuardedPages`).
- Sign-out never deactivates the browser's session row (`System.LogoutKeepsSessionRowLive`).
- Startup deletes every session row rather than flagging rows inactive (`Sessions.PurgeOnStartup`, `Gate.StartupPurgeRejectsEveryBrowser`).
- The history prune reads the rows stored before the new one is saved. After a change a user keeps the new row plus the two newest older rows, three in all, although the stated intent is two (`Policy.PruneKeepsThreeRows`). Three is the bound every step keeps (`System.StepPreservesInvariant`).
- A wrong authenticator code that sets the lock is answered as a wrong code and logged as `2FAFailed`. The lockout message and `AccountLocked` come only with the next attempt (`Verify2fa.LockIsReportedOneAttemptLate`). The password path reports the lock on the failure that sets it.
- Disabling two-factor replaces the authenticator key instead of clearing it (`Enable2fa.PostDisable`, `System.DisableReplacesKey`).
- The authenticator URI puts the email in unescaped. An address containing `?` yields a URI whose label and secret are read wrongly (`Enable2fa.QuestionMarkEmailBreaksUri`), and the form's email check admits such addresses (`Enable2fa.QuestionMarkEmailIsAccepted`). For accounts made by registration the defect is latent: the email is also the user name and `?` is not a user-name character, so every registered email yields a URI that reads back correctly (`System.RegisteredEmailGivesFaithfulUri`).
- Registration uses the email as user name. An email the form accepts that contains `'` is refused by the library's user-name rule (`Register.ApostropheEmailIsRefused`).
- The resume file is written before the account is created, so a registration the library refuses still leaves a stored file (`Register.Post`: `savedFile` is set whenever the checks pass).
- A reset has no minimum-age check (`System.ResetIgnoresMinimumAge`).

## Model

| member | source | states |
|---|---|---|
| Audit.Log | ApplicationSecurity/Services/AuditLogService.cs:17-32 | Each call appends exactly one record; the records before it are unchanged. The record carries the given user id, action and details, with the timestamp `now`. Its IP is absent without an HTTP context, otherwise it is the connection's remote address. |
| Audit.ExtendsTransitive | ApplicationSecurity/Services/AuditLogService.cs:30-31 | Append-only composes: a log extended twice extends the original. |
| Identity.PasswordErrors | ApplicationSecurity/Program.cs:24-29 | The validator reports no error iff the password is at least 12 characters, not blank, and has a non-alphanumeric character, a digit, a lower-case and an upper-case letter. |
| Identity.IsLockedOut | ApplicationSecurity/Pages/Login.cshtml.cs:84 | An account is locked while it has a lockout end that is not yet past; the end instant itself still counts as locked. |
| Identity.ChangePassword | ApplicationSecurity/Pages/ChangePassword.cshtml.cs:109 | The library change succeeds iff the current password verifies and the new one passes validation. A wrong current password gives `PasswordMismatch`. On success only the hash changes. |
| Identity.ResetPassword | ApplicationSecurity/Pages/ResetPassword.cshtml.cs:94 | The library reset succeeds iff the token is valid and the new password passes validation. An invalid token gives `InvalidToken`. |
| Identity.AccessFailed | ApplicationSecurity/Program.cs:31-34 | A counted failure changes only the lockout columns. The failure that reaches 3 locks the account for 15 minutes and resets the count; otherwise the count goes up by one. |
| Identity.PasswordSignIn | ApplicationSecurity/Pages/Login.cshtml.cs:95-96 | A locked account is refused unchanged. The result is success iff the password verifies and two-factor is not in force, and two-factor-required iff it verifies and two-factor is in force. A wrong password is counted, and the result is locked-out iff that failure reaches the threshold. |
| Identity.TwoFactorSignIn | ApplicationSecurity/Pages/Verify2fa.cshtml.cs:63-64 | The lockout pre-check comes first: the result is locked-out iff the account was already locked. Otherwise it is success iff the code is accepted. A rejected code is counted like a wrong password but reported as a plain failure, even when the count sets the lock. |
| Identity.LockoutWindow | ApplicationSecurity/Program.cs:32-33 | A lock set at `t` holds exactly through `t` + 15 minutes. |
| Identity.ThreeFailuresLockTheAccount | ApplicationSecurity/Program.cs:31-34 | From a clean account, three wrong passwords give Failed, Failed, LockedOut. Any fourth attempt within 15 minutes is refused, whatever the password. |
| Policy.PasswordFieldValid | ApplicationSecurity/Pages/Register.cshtml.cs:68-74 | The form accepts a password iff it has at least 12 characters, no line feed, and at least one lower-case letter, one upper-case letter, one digit and one character that is not a letter or digit (or is `_`). |
| Policy.FieldValidPassesIdentityPolicy | ApplicationSecurity/Pages/Register.cshtml.cs:68-74 | Every password the form's pattern accepts also passes the library's validator, with the pattern's `\d` read as `0`–`9` (see Left out). |
| Policy.ScenarioPasswords | ApplicationSecurity/Pages/Register.cshtml.cs:70-71 | The pattern rejects `Weak1!` and accepts `StrongPass1!`. |
| Policy.TooSoonToChange | ApplicationSecurity/Pages/ChangePassword.cshtml.cs:77-86 | A change is refused as too soon iff a last-change date is recorded and strictly less than 5 minutes have passed since it; with no date recorded it is never too soon. |
| Policy.PasswordExpired | ApplicationSecurity/Program.cs:165-174 | A password is expired iff a last-change date is recorded and strictly more than 90 days have passed since it, counting fractions of a day; with no date recorded it never expires. |
| Policy.ExpiryBoundary | ApplicationSecurity/Program.cs:163-175 | A password is expired one tick past 90 days after its change (days are fractional) and at 91 days, not at 90 or 89 days; a change is too soon one tick before 5 minutes, not at 5 minutes. |
| Policy.AgeRulesMonotone | ApplicationSecurity/Pages/ChangePassword.cshtml.cs:78-87 | Expiry persists as time passes, and so does eligibility to change; no password is both expired and too young. |
| Policy.SortNewestFirst | ApplicationSecurity/Pages/ChangePassword.cshtml.cs:90-106 | The ordering by creation date, descending, is a permutation of its input and is sorted newest first. |
| Policy.ReuseCheckMeaning | ApplicationSecurity/Pages/ChangePassword.cshtml.cs:90-106 | A candidate counts as a reuse iff it verifies against one of the user's two newest history hashes. |
| Policy.RecordChange | ApplicationSecurity/Pages/ChangePassword.cshtml.cs:114-127 | After a change the user's rows are the two newest older rows plus the new one. As a multiset this is the old rows minus the pruned ones plus the new one. Other users' rows are unchanged. |
| Policy.JustRecordedPasswordIsReused | ApplicationSecurity/Pages/ChangePassword.cshtml.cs:90-127 | With a clock that does not run backwards, the hash just recorded is among the two the next reuse check reads. |
| Policy.PruneKeepsThreeRows | ApplicationSecurity/Pages/ChangePassword.cshtml.cs:114-132 | With two rows on record, a change leaves three. |
| Sessions.FindActive | ApplicationSecurity/Program.cs:146-157 | The lookup finds the first row matching session id, user id and active flag together, and finds none iff no row matches. |
| Sessions.Touch | ApplicationSecurity/Program.cs:159-161 | Only the found row's `LastActiveAt` becomes `now`; no other field or row changes. |
| Sessions.PurgeOnStartup | ApplicationSecurity/Program.cs:82-88 | After startup the session table is empty and no lookup succeeds; the other tables are unchanged. |
| Gate.Gate | ApplicationSecurity/Program.cs:110-179 | Anonymous requests and `/logout`, `/error`, `/statuscode...` paths pass unchanged. A principal without a user is signed out and sent to `/Login`. A missing or empty session id signs out and sends to `session_expired`; an id without a matching active row also clears the transport session. A live row is touched and nothing else changes. The `password_expired` redirect happens iff the session check passed, the path is not `/changepassword` and the password is more than 90 days old. A request that proceeds holds a live session. |
| Gate.StartupPurgeRejectsEveryBrowser | ApplicationSecurity/Program.cs:82-88 | After the startup purge every signed-in browser is signed out on its next guarded request, whatever session id it carries. |
| Gate.ExpiryRedirectBoundary | ApplicationSecurity/Program.cs:163-175 | With a live session the gate redirects to change the password 91 days after the last change and lets the request through 89 days after it. |
| Login.Banner | ApplicationSecurity/Pages/Login.cshtml.cs:49-61 | A banner is shown iff the message key is one of the six known keys. |
| Login.Attempt | ApplicationSecurity/Pages/Login.cshtml.cs:95-127 | For an account found and not locked: `/Index` iff the password verifies and two-factor is off, with the session id recorded and `Login` logged. `/Verify2fa` iff it verifies and two-factor is on, with only the two-factor user set. A wrong password is counted and logs `AccountLocked` or `LoginFailed` by whether it locked the account. No session row is written. |
| Login.Post | ApplicationSecurity/Pages/Login.cshtml.cs:63-128 | An invalid form, a failed CAPTCHA or an unknown email change nothing. A locked account is refused before its password is checked, and `LoginAttempt_LockedOut` is logged. Redirect to `/Index` happens iff the password verifies and two-factor is off; then the session id is set on the user and in the transport session and `Login` is logged. Redirect to `/Verify2fa` happens iff it verifies and two-factor is on; then only the two-factor user is set. A wrong password is counted, logging `AccountLocked` or `LoginFailed`. No session row is ever written. |
| Login.UnknownEmailLooksLikeWrongPassword | ApplicationSecurity/Pages/Login.cshtml.cs:76-127 | An unknown email and a wrong password short of the lock give the same response. |
| Verify2fa.PendingUser | ApplicationSecurity/Pages/Verify2fa.cshtml.cs:58-60 | The pending user exists iff the two-factor cookie names an existing user. |
| Verify2fa.CodeFieldValid | ApplicationSecurity/Pages/Verify2fa.cshtml.cs:38-41 | The code field is accepted iff it is not blank and is 6 or 7 characters long; its characters are not checked. |
| Verify2fa.Get | ApplicationSecurity/Pages/Verify2fa.cshtml.cs:44-51 | The page is shown iff a sign-in is pending, otherwise the browser is sent to `/Login`. |
| Verify2fa.NormalizeCode | ApplicationSecurity/Pages/Verify2fa.cshtml.cs:62 | The normalised code holds no space or hyphen and only characters of the input. |
| Verify2fa.NormalizeCodeIdempotent | ApplicationSecurity/Pages/Verify2fa.cshtml.cs:62 | Normalising twice is normalising once. |
| Verify2fa.NormalizeCodeSplits | ApplicationSecurity/Pages/Verify2fa.cshtml.cs:62 | A separator anywhere in the code vanishes: the two sides normalise separately. |
| Verify2fa.Post | ApplicationSecurity/Pages/Verify2fa.cshtml.cs:53-101 | Success happens iff a pending user who is not locked submits a code accepted after normalisation. Success inserts exactly one active row with that user, the fresh session id, and creation and last-activity times of `now`. It binds the transport session to that id, resets the count and logs `Login`. Any other outcome writes no row and leaves the browser alone. A rejected code is counted, shown as an invalid code and logged as `2FAFailed`, even when the count sets the lock. An account already locked is refused with the lockout message whatever the code; its row is not written and `AccountLocked` is logged. |
| Verify2fa.LockIsReportedOneAttemptLate | ApplicationSecurity/Pages/Verify2fa.cshtml.cs:89-100 | The third wrong code in a row locks the account but is answered with the invalid-code message. Any next attempt within 15 minutes gets the lockout message, whatever its code. |
| Enable2fa.FormatKey | ApplicationSecurity/Pages/Enable2fa.cshtml.cs:126-139 | The output is the lower-cased key in blocks of four. For a key without spaces, removing the spaces gives the lower-cased key back. Spaces sit exactly at every fifth position, never first or last, and the length is the key's plus one per full block before the last. |
| Enable2fa.GroupKey | ApplicationSecurity/Pages/Enable2fa.cshtml.cs:130-136 | The loop builds exactly the grouped key. |
| Enable2fa.FormattedKeyLayout | ApplicationSecurity/Pages/Enable2fa.cshtml.cs:130-136 | In the formatted key a character is a space iff its position is 4 mod 5, so it neither starts nor ends with a space. |
| Enable2fa.UngroupGroups | ApplicationSecurity/Pages/Enable2fa.cshtml.cs:126-139 | Deleting the separators from the grouped key gives the key back. |
| Enable2fa.QrUri | ApplicationSecurity/Pages/Enable2fa.cshtml.cs:141-144 | The authenticator URI is the `otpauth://totp/AceJobAgency:` prefix, the email as typed, then `?secret=` with the unformatted key and the fixed `issuer` and `digits=6` parameters. |
| Enable2fa.QrUriRoundTrip | ApplicationSecurity/Pages/Enable2fa.cshtml.cs:141-144 | For an email without `?` and a key without `&`, the label's email and the `secret` parameter read back from the URI are the inputs. |
| Enable2fa.GeneratedKeyUriRoundTrip | ApplicationSecurity/Pages/Enable2fa.cshtml.cs:141-144 | For an email without `?`, the URI built with any key the library generates reads back that email and that key. |
| Enable2fa.QuestionMarkEmailBreaksUri | ApplicationSecurity/Pages/Enable2fa.cshtml.cs:141-144 | For every email containing a `?` and every key, the URI does not read back as that email and key. |
| Enable2fa.QuestionMarkEmailIsAccepted | ApplicationSecurity/Pages/Register.cshtml.cs:63-66 | The email check accepts `a?b@c`, and the URI built for it does not read back as that email. |
| Enable2fa.LoadKey | ApplicationSecurity/Pages/Enable2fa.cshtml.cs:109-114 | A stored key is kept; a fresh key is stored only when none is present. |
| Enable2fa.LoadKeyIdempotent | ApplicationSecurity/Pages/Enable2fa.cshtml.cs:109-114 | Repeated loads return the key the first load stored. |
| Enable2fa.Get | ApplicationSecurity/Pages/Enable2fa.cshtml.cs:43-57 | Enrolment is shown iff the user is signed in with two-factor off, and then a key is stored. Nothing else in the store or browser changes. |
| Enable2fa.PostEnable | ApplicationSecurity/Pages/Enable2fa.cshtml.cs:59-90 | Two-factor is switched on and `2FAEnabled` logged iff a signed-in user submits a code accepted under the stored key. Any other outcome writes no audit record and shows enrolment again. |
| Enable2fa.PostDisable | ApplicationSecurity/Pages/Enable2fa.cshtml.cs:92-105 | Two-factor is turned off, the key is replaced by a fresh one and `2FADisabled` is logged. |
| ChangePassword.Banner | ApplicationSecurity/Pages/ChangePassword.cshtml.cs:59-66 | A banner is shown iff the message is `password_expired`. |
| ChangePassword.Post | ApplicationSecurity/Pages/ChangePassword.cshtml.cs:68-149 | A change within 5 minutes of a recorded change is refused, and so is a reuse of the two newest hashes. The change goes through iff both checks pass and the current password verifies. Then the hash and date are set, the history keeps the two newest older rows plus the new one, `PasswordChanged` is logged, and the browser is signed out with its transport session cleared. Every refusal changes nothing. |
| Recovery.Forgot | ApplicationSecurity/Pages/ForgotPassword.cshtml.cs:43-81 | `EmailSent` is shown iff the form is valid, whether or not the account exists. A mail and a `PasswordResetRequested` record happen iff the account exists. Otherwise nothing changes. |
| Recovery.ForgotDoesNotEnumerate | ApplicationSecurity/Pages/ForgotPassword.cshtml.cs:48-53 | A known and an unknown address show the same page and leave the browser the same. |
| Recovery.ResetGet | ApplicationSecurity/Pages/ResetPassword.cshtml.cs:54-61 | The form is shown iff both token and email are present, otherwise the browser is sent to `/Login`. |
| Recovery.Reset | ApplicationSecurity/Pages/ResetPassword.cshtml.cs:63-135 | An unknown email gets the success redirect and changes nothing. A reuse is refused before the reset; an invalid token changes nothing. A valid reset sets the hash and date, lifts the lockout, resets the count, records history as a change does and logs `PasswordReset`. |
| Logout.Get | ApplicationSecurity/Pages/Logout.cshtml.cs:25-28 | A plain visit redirects to `/Index` and changes nothing. |
| Logout.OnlyPostSignsOut | ApplicationSecurity/Pages/Logout.cshtml.cs:25-46 | A visit leaves the signed-in user and the transport session id in place; only the form post signs the browser out and empties its transport session. |
| Logout.Post | ApplicationSecurity/Pages/Logout.cshtml.cs:30-47 | It always signs out, clears the transport session and redirects with `logged_out`. With a user it clears the user's session id and logs `Logout`. Session rows are untouched. |
| Logout.PostIdempotentForBrowser | ApplicationSecurity/Pages/Logout.cshtml.cs:30-47 | A second sign-out changes nothing further. |
| StatusCode.Describe | ApplicationSecurity/Pages/StatusCode.cshtml.cs:11-27 | The code is echoed. Each of the nine listed codes gets its own title and description from the table; any other code gets `Error` and the generic description. Only unlisted codes get the title `Error`. |
| StatusCode.TitleIdentifiesListedCode | ApplicationSecurity/Pages/StatusCode.cshtml.cs:14-26 | A listed code's title differs from the title of every other code, listed or not, so the title tells which listed code the page reports. |
| StatusCode.ListedTitlesDistinct | ApplicationSecurity/Pages/StatusCode.cshtml.cs:16-24 | No two of the nine listed codes share a title. |
| Html.HtmlEncode | ApplicationSecurity/Pages/Register.cshtml.cs:170-173 | The encoded text holds no `<`, `>`, `"` or `'`, and text with nothing to encode is unchanged. |
| Html.HtmlRoundTrip | ApplicationSecurity/Pages/Register.cshtml.cs:170-173 | Decoding the encoded text gives the typed text back. |
| Forms.Required | ApplicationSecurity/Pages/ResetPassword.cshtml.cs:32-36 | A required field is accepted iff it is not empty and not only white space. |
| Forms.EmailShaped | ApplicationSecurity/Pages/Register.cshtml.cs:63-66 | An email field is accepted iff it has no carriage return or line feed and exactly one `@`, which is neither the first nor the last character. |
| Forms.EmailShapedExamples | ApplicationSecurity/Pages/Register.cshtml.cs:63-66 | The email check accepts `a@b.c` and rejects `a.b`, `@b` and `a@@b`. |
| Register.NameValid | ApplicationSecurity/Pages/Register.cshtml.cs:42-52 | A first or last name is accepted iff it is not blank, has at most 50 characters, and every character is an ASCII letter, white space or a hyphen. |
| Register.NricValid | ApplicationSecurity/Pages/Register.cshtml.cs:58-61 | An NRIC is accepted iff it is exactly nine characters: one of `S`, `T`, `F`, `G`, `M`, then seven ASCII digits (see Left out), then an upper-case letter. |
| Register.NricExamples | ApplicationSecurity/Pages/Register.cshtml.cs:58-61 | The NRIC pattern accepts `S1234567A` and rejects malformed values. |
| Register.ResumeError | ApplicationSecurity/Pages/Register.cshtml.cs:116-144 | A resume is accepted iff its lower-cased extension is `.docx` or `.pdf`, its lower-cased content type is one of the two listed, and it is at most 10 MiB. A bad extension is reported as such whatever else is wrong. |
| Register.Extension | ApplicationSecurity/Pages/Register.cshtml.cs:119 | The extension is a suffix of the name starting with its last dot after the last `/`, or empty. |
| Register.DoubleExtensionJudgedByLast | ApplicationSecurity/Pages/Register.cshtml.cs:116-144 | Only the last extension counts: `cv.pdf.exe` is refused and `cv.exe.pdf` accepted. |
| Register.UserErrors | ApplicationSecurity/Pages/Register.cshtml.cs:179-194 | The library accepts a new user iff the user name is not blank, uses only allowed characters and is not taken, and the email is not blank, well formed and not taken. |
| Register.Create | ApplicationSecurity/Pages/Register.cshtml.cs:194 | Creation succeeds iff the password passes validation and the user passes the user checks. A bad password is reported with the validator's errors. |
| Register.Post | ApplicationSecurity/Pages/Register.cshtml.cs:103-219 | An invalid form, a failed CAPTCHA, a bad resume or a duplicate email change nothing and write no file. The file is written whenever those checks pass. The account is created iff the library accepts it. Then exactly one user with the change date `now`, exactly one history row with the new hash, and a `Registration` record are added. |
| Register.ApostropheEmailIsRefused | ApplicationSecurity/Pages/Register.cshtml.cs:179-194 | The form accepts `o'b@c`, yet the library refuses it as a user name. |
| Register.AcceptedNameHasNoQuestionMark | ApplicationSecurity/Pages/Register.cshtml.cs:179-194 | A user name the library accepts contains no `?`. |
| System.EmptyStoreIsValid | ApplicationSecurity/Program.cs:82-88 | A fresh, empty store satisfies the invariant. |
| System.StepPreservesInvariant | ApplicationSecurity/Pages/ChangePassword.cshtml.cs:114-132 | Every page handler and restart keeps ids unique, session rows active and at most three history rows per user, and only appends to the audit log. |
| System.RunPreservesInvariant | ApplicationSecurity/Services/AuditLogService.cs:17-32 | Over any run of steps from a valid store the invariant holds, and no audit record written before the run is changed or removed. |
| System.PasswordLoginIsBouncedByGate | ApplicationSecurity/Pages/Login.cshtml.cs:98-107 | After a password-only sign-in with a fresh session id, the next guarded request is signed out and sent to `session_expired`. |
| System.CodeLoginPassesGate | ApplicationSecurity/Pages/Verify2fa.cshtml.cs:66-87 | After a two-factor sign-in the next guarded request keeps the user signed in and is let through unless the password has expired. |
| System.TwoFactorSignInReachesGuardedPages | ApplicationSecurity/Pages/Login.cshtml.cs:110-113 | For an account with two-factor on, the right password leads to `/Verify2fa` and an accepted code then gets past the gate. |
| System.LogoutKeepsSessionRowLive | ApplicationSecurity/Pages/Logout.cshtml.cs:30-47 | After sign-out the browser's session row is still found as active. |
| System.EnrolmentPageStoresKey | ApplicationSecurity/Pages/Enable2fa.cshtml.cs:107-124 | The enrolment page shows the formatted key and URI of the key it stores on the signed-in user. |
| System.EnrolmentChecksShownKey | ApplicationSecurity/Pages/Enable2fa.cshtml.cs:59-90 | The enrolment page shows the stored key, and the enable step accepts exactly the codes valid under that key. Afterwards two-factor is in force for the account. |
| System.EnableTurnsOnTwoFactor | ApplicationSecurity/Pages/Enable2fa.cshtml.cs:84-85 | A successful enable step leaves the signed-in user with two-factor sign-in in force. |
| System.DisableReplacesKey | ApplicationSecurity/Pages/Enable2fa.cshtml.cs:98-99 | After disabling, enrolment shows the new key, not the one the authenticator holds. |
| System.RegisteredEmailGivesFaithfulUri | ApplicationSecurity/Pages/Register.cshtml.cs:179-194 | After a successful registration, the stored account's email is the form's email and holds no `?`. The authenticator URI for it and any generated key reads back that email and key. |
| System.ChangedPasswordCannotBeSetAgain | ApplicationSecurity/Pages/ChangePassword.cshtml.cs:78-106 | A password just set cannot be set again by any later change: it is either too soon or a reuse. |
| System.ResetIgnoresMinimumAge | ApplicationSecurity/Pages/ResetPassword.cshtml.cs:63-94 | A reset with a valid token succeeds even when a change would be too soon, and sets the new hash and date. |
| System.IssuedLocationsCarryKeys | ApplicationSecurity/Pages/Login.cshtml.cs:49-61 | The redirects of registration, the gate's session expiry and sign-out carry the keys the login page reads. |
| System.PasswordLocationsCarryKeys | ApplicationSecurity/Pages/ChangePassword.cshtml.cs:140 | The redirects after a password change and a reset carry the keys the login page reads. |
| System.ExpiryLocationCarriesKey | ApplicationSecurity/Program.cs:171 | The gate's expiry redirect carries the key the change page reads. |
| System.IssuedKeysHaveBanners | ApplicationSecurity/Pages/Login.cshtml.cs:51-60 | Every issued key has a banner, and the `another_login` banner is never asked for. |

## Left out

- Identity internals: password hashing, the RFC 6238 TOTP check and reset-token validation are parameters. The validator, lockout counter and sign-in results are written from the configured constants (ApplicationSecurity/Program.cs:24-34) and the library's behaviour as of ASP.NET Core 8; the library's own code is not part of this model.
- Identity.PasswordSignIn: the library looks the user up by user name, whereas the model uses the user the page found by email. Registration makes the two equal; users created by other means are not modelled.
- The reCAPTCHA service (ApplicationSecurity/Services/ReCaptchaService.cs) is a boolean parameter. In the service an empty token gives false and an exception in the call gives true (it fails open); the HTTP call and the score are not modelled.
- EncryptionService is a function parameter; EmailService is replaced by the returned `ResetMail`. Delivery failure is caught and not observable, so it is not modelled, and the reset link's URL is not built.
- Recovery.Forgot: the mail records the recipient and user, not the token text; token generation is the library's.
- The Index page, the site script, dependency injection, cookie, antiforgery and middleware set-up, and the database context are not part of this model.
- Register.Post: the resume's bytes, the content-root directory and the file write itself are left out; the model records only the stored path. QR PNG rendering (ApplicationSecurity/Pages/Enable2fa.cshtml.cs:119-123) is left out.
- Concurrency and transactions: each request is one atomic step with a single clock reading `now`, where the code reads the clock more than once.
- Times are integer ticks. `TotalDays > 90` and `TotalMinutes < 5` become tick comparisons with the same strictness. The local-time rendering in the lockout message is kept symbolic (`LockedUntilLocal`).
- Security-stamp updates, `ReturnUrl` handling and the `[Authorize]` attribute's own redirects are not modelled.
- Character classes and case mapping are ASCII, except the .NET whitespace class. `[EmailAddress]` is modelled as no line break and exactly one `@` that is neither first nor last. `Path.GetExtension` treats only `/` as a directory separator.
- Ties in the history ordering by date follow storage order, newest stored first; the database's own tie order is not specified.
- Identity.TwoFactorSignIn: follows `SignInManager.TwoFactorAuthenticatorSignInAsync` as of ASP.NET Core 8, which counts a rejected code and then returns `Failed` without checking the lock again. A library version that re-checks the lock there would report `LockedOut` on the failure that sets it.
- Register.NricValid: in .NET the pattern's `\d` matches any Unicode decimal digit, while the model reads it as `0`–`9`. So `S١٢٣٤٥٦٧A` passes the form but is refused by the model.
- Policy.FieldValidPassesIdentityPolicy: in .NET the form pattern's `\d` matches any Unicode decimal digit, but the library's validator counts only `0`–`9` as digits. So `Abcdefghijk!٣` passes the form and is refused with `PasswordRequiresDigit`. The model reads `\d` as `0`–`9`, so this lemma and the success conditions of `Register.Post`, `ChangePassword.Post` and `Recovery.Reset` say nothing about passwords whose only digits are non-ASCII.
- Policy.PasswordFieldValid: .NET measures string length in UTF-16 code units, while the model counts characters (Unicode scalar values). A character outside the Basic Multilingual Plane counts once here and twice there: `Abcdefghi1😀` has 11 characters here and 12 code units in .NET, so .NET accepts it and the model refuses it. The 12-character minimum is stated over characters.
- Identity.PasswordErrors: its 12-character minimum is likewise counted in characters, not UTF-16 code units.
- Verify2fa.CodeFieldValid: its 6-to-7 length bound is likewise counted in characters, not UTF-16 code units.
- StatusCode.Describe: does not state that the listed titles and descriptions are non-empty. Length facts about these string constants are too costly for the verifier; the wording itself is given by `StatusCode.Listed`.
- Html.HtmlEncode: only the characters `WebUtility.HtmlEncode` rewrites are modelled (`<`, `>`, `"`, `'`, `&`, U+00A0–U+00FF and characters outside the Basic Multilingual Plane); the decoder handles exactly those references.
- The transport session lives in the browser's state in this model. In the service it is server-side data keyed by a cookie.

=== FILE: audit.dfy ===
/** The audit log service: every security event is appended as one record,
    and nothing else in the model ever rewrites the log. */
module Audit {
  import opened Base
  import opened Entities

  // The action tags the pages write.
  const ActRegistration: string := "Registration"
  const ActLogin: string := "Login"
  const ActLoginLockedOut: string := "LoginAttempt_LockedOut"
  const ActAccountLocked: string := "AccountLocked"
  const ActLoginFailed: string := "LoginFailed"
  const Act2faFailed: string := "2FAFailed"
  const Act2faEnabled: string := "2FAEnabled"
  const Act2faDisabled: string := "2FADisabled"
  const ActPasswordChanged: string := "PasswordChanged"
  const ActPasswordReset: string := "PasswordReset"
  const ActPasswordResetRequested: string := "PasswordResetRequested"
  const ActLogout: string := "Logout"

  /** `HttpContext?.Connection.RemoteIpAddress?.ToString()`. */
  function IpOf(http: Option<HttpContext>): Option<string> {
    if http.None? then None else http.value.remoteIp
  }

  /** `b` is `a` with records appended: no record of `a` is changed or
      removed. */
  predicate Extends(a: seq<AuditRecord>, b: seq<AuditRecord>) {
    |a| <= |b| && b[..|a|] == a
  }

  /** `AuditLogService.LogAsync`. */
  function Log(log: seq<AuditRecord>, http: Option<HttpContext>, userId: UserId,
               action: string, details: Option<string>, now: int): (r: seq<AuditRecord>)
    ensures |r| == |log| + 1 && Extends(log, r)
    ensures r[|log|].userId == userId && r[|log|].action == action && r[|log|].details == details
    ensures r[|log|].timestamp == now
    ensures http.None? ==> r[|log|].ipAddress == None
    ensures http.Some? ==> r[|log|].ipAddress == http.value.remoteIp
  {
    log + [AuditRecord(userId, action, now, IpOf(http), details)]
  }

  /** The log a page writes for a request it serves. */
  function LogFor(log: seq<AuditRecord>, req: Request, userId: UserId,
                  action: string, details: string): seq<AuditRecord>
  {
    Log(log, Some(req.http), userId, action, Some(details), req.now)
  }

  lemma ExtendsTransitive(a: seq<AuditRecord>, b: seq<AuditRecord>, c: seq<AuditRecord>)
    requires Extends(a, b) && Extends(b, c)
    ensures Extends(a, c)
  {
    assert c[..|a|] == c[..|b|][..|a|];
  }

  /** Two-digit rendering used by the `HH:mm:ss` time format. */
  function TwoDigits(n: nat): (r: string)
    requires n < 100
    ensures |r| == 2 && IsDigit(r[0]) && IsDigit(r[1])
  {
    [('0' as int + n / 10) as char, ('0' as int + n % 10) as char]
  }

  /** `{t:HH:mm:ss UTC}` for a tick count from 0001-01-01 UTC. */
  function UtcClockText(t: int): (r: string)
    ensures |r| == 12
  {
    var tod := t % TicksPerDay;
    TwoDigits(tod / TicksPerHour) + ":" + TwoDigits(tod % TicksPerHour / TicksPerMinute) + ":"
      + TwoDigits(tod % TicksPerMinute / TicksPerSecond) + " UTC"
  }
}

=== FILE: base.dfy ===
/** Shared vocabulary of the account service model: optional values, the
    clock unit, and the character classes and case mappings that the
    service's regular expressions and lower-casing calls rely on.

    Character classes are the ASCII parts of the .NET classes; `\s` is the
    full .NET whitespace class. */
module Base {

  datatype Option<+T> = None | Some(value: T)

  /** Identity user ids are GUID strings. */
  type UserId = string

  /** Time is an integer count of .NET ticks (100 ns), read from an injected
      clock. */
  const TicksPerSecond: int := 10_000_000
  const TicksPerMinute: int := 60 * TicksPerSecond
  const TicksPerHour: int := 60 * TicksPerMinute
  const TicksPerDay: int := 24 * TicksPerHour

  predicate IsLower(c: char) { 'a' <= c <= 'z' }
  predicate IsUpper(c: char) { 'A' <= c <= 'Z' }
  predicate IsDigit(c: char) { '0' <= c <= '9' }
  predicate IsLetter(c: char) { IsLower(c) || IsUpper(c) }

  /** `\w`, restricted to ASCII. */
  predicate IsWordChar(c: char) { IsLetter(c) || IsDigit(c) || c == '_' }

  /** `\s` and `char.IsWhiteSpace` in .NET: the Unicode separators plus the
      C0/C1 layout characters. */
  predicate IsWhiteSpace(c: char) {
    || c == ' ' || ('\t' <= c <= '\r') || c == '\U{0085}' || c == '\U{00A0}'
    || c == '\U{1680}' || ('\U{2000}' <= c <= '\U{200A}') || c == '\U{2028}'
    || c == '\U{2029}' || c == '\U{202F}' || c == '\U{205F}' || c == '\U{3000}'
  }

  function LowerChar(c: char): char {
    if IsUpper(c) then (c as int + 32) as char else c
  }

  function UpperChar(c: char): char {
    if IsLower(c) then (c as int - 32) as char else c
  }

  /** `ToLower()` on ASCII text. */
  function Lower(s: string): string {
    seq(|s|, i requires 0 <= i < |s| => LowerChar(s[i]))
  }

  /** `ToUpperInvariant()` on ASCII text; Identity normalises emails with it. */
  function Upper(s: string): string {
    seq(|s|, i requires 0 <= i < |s| => UpperChar(s[i]))
  }

  predicate StartsWith(s: string, prefix: string) {
    |prefix| <= |s| && s[..|prefix|] == prefix
  }

  predicate IsNullOrEmpty(o: Option<string>) {
    o.None? || o.value == ""
  }

  /** `string.IsNullOrWhiteSpace`, the test behind `[Required]`. */
  predicate IsBlank(s: string) {
    forall i :: 0 <= i < |s| ==> IsWhiteSpace(s[i])
  }

  /** `s.Replace(c.ToString(), "")`. */
  function Remove(s: string, c: char): (r: string)
    ensures c !in r
    ensures |r| <= |s|
    ensures forall d :: d in r ==> d in s
  {
    if s == [] then []
    else if s[0] == c then Remove(s[1..], c)
    else [s[0]] + Remove(s[1..], c)
  }

  lemma {:induction false} RemoveDistributes(a: string, b: string, c: char)
    ensures Remove(a + b, c) == Remove(a, c) + Remove(b, c)
  {
    if a == [] {
      assert a + b == b;
    } else {
      assert (a + b)[1..] == a[1..] + b;
      RemoveDistributes(a[1..], b, c);
    }
  }

  lemma {:induction false} RemoveAbsent(s: string, c: char)
    requires c !in s
    ensures Remove(s, c) == s
  {
    if s != [] {
      assert s == [s[0]] + s[1..];
      RemoveAbsent(s[1..], c);
    }
  }
}

=== FILE: changepassword.dfy ===
/** The signed-in password change (ApplicationSecurity/Pages/ChangePassword.cshtml.cs):
    minimum password age, no reuse of the two newest stored passwords, the
    library's change, the history update, and a forced sign-out. */
module ChangePassword {
  import opened Base
  import opened Entities
  import opened Identity
  import opened Audit
  import opened Forms
  import opened Policy

  const ExpiredKey: string := "password_expired"

  /** `OnGet(message)`: only the expiry redirect has a banner. */
  function Banner(message: Option<string>): (r: Option<string>)
    ensures r.Some? <==> message == Some(ExpiredKey)
  {
    if message == Some(ExpiredKey) then Some("Your password has expired. Please change it now.") else None
  }

  datatype ChangeForm = ChangeForm(current: string, newPassword: string, confirm: string)

  /** The input model's annotations: all three fields required, the new
      password matching the complexity pattern, the confirmation equal. */
  predicate FormValid(f: ChangeForm) {
    Required(f.current) && Required(f.newPassword) && PasswordFieldValid(f.newPassword)
    && Required(f.confirm) && f.confirm == f.newPassword
  }

  const TooSoon: string := "You cannot change your password within 5 minutes of the last change."
  const Reused: string := "You cannot reuse your last 2 passwords. Please choose a different password."
  const ChangedLocation: string := "/Login?message=password_changed"

  /** Every check before the library call passes. */
  predicate Admissible(s: State, req: Request, f: ChangeForm, verify: PasswordVerifier) {
    && FormValid(f) && CurrentUser(s).Some?
    && !TooSoonToChange(CurrentUser(s).value.lastPasswordChange, req.now)
    && !ReusesRecentPassword(s.store.history, CurrentUser(s).value.id, f.newPassword, verify)
  }

  /** `OnPostAsync`. `newHash` is the hash the library computes for the new
      password. */
  function Post(s: State, req: Request, f: ChangeForm, verify: PasswordVerifier, newHash: string): (r: Reply)
    // Session rows are never touched, not even by the forced sign-out.
    ensures r.next.store.sessions == s.store.sessions
    ensures Extends(s.store.audit, r.next.store.audit) && |r.next.store.audit| <= |s.store.audit| + 1
    ensures !FormValid(f) ==> r == Reply(s, Page([]))
    ensures FormValid(f) && CurrentUser(s).None? ==> r == Reply(s, Redirect("/Login"))
    ensures FormValid(f) && CurrentUser(s).Some? && TooSoonToChange(CurrentUser(s).value.lastPasswordChange, req.now) ==>
      r == Reply(s, Page([ModelError("", Text(TooSoon))]))
    ensures FormValid(f) && CurrentUser(s).Some? && !TooSoonToChange(CurrentUser(s).value.lastPasswordChange, req.now)
            && ReusesRecentPassword(s.store.history, CurrentUser(s).value.id, f.newPassword, verify) ==>
      r == Reply(s, Page([ModelError("", Text(Reused))]))
    // The change goes through exactly when the checks pass and the current
    // password is right; the form's pattern already satisfies the library.
    ensures r.response == Redirect(ChangedLocation) <==>
      Admissible(s, req, f, verify) && verify(CurrentUser(s).value.passwordHash, f.current)
    ensures r.response == Redirect(ChangedLocation) ==>
      var u := CurrentUser(s).value;
      && r.next.store.users == UpdateUser(s.store.users, u.(passwordHash := newHash, lastPasswordChange := Some(req.now)))
      && RowsOf(r.next.store.history, u.id) == Recent(s.store.history, u.id) + [HistoryRow(u.id, newHash, req.now)]
      && (forall v :: v != u.id ==> RowsOf(r.next.store.history, v) == RowsOf(s.store.history, v))
      && r.next.store.audit == LogFor(s.store.audit, req, u.id, ActPasswordChanged, "Password changed successfully.")
      && r.next.client == ClearTransport(SignOut(s.client))
    // A wrong current password changes nothing.
    ensures Admissible(s, req, f, verify) && !verify(CurrentUser(s).value.passwordHash, f.current) ==>
      r == Reply(s, Page(ErrorsOf(["PasswordMismatch"])))
    ensures r.response != Redirect(ChangedLocation) ==> r.next == s
  {
    if !FormValid(f) then Reply(s, Page([]))
    else match CurrentUser(s)
      case None => Reply(s, Redirect("/Login"))
      case Some(u) =>
        if TooSoonToChange(u.lastPasswordChange, req.now) then Reply(s, Page([ModelError("", Text(TooSoon))]))
        else if ReusesRecentPassword(s.store.history, u.id, f.newPassword, verify) then
          Reply(s, Page([ModelError("", Text(Reused))]))
        else
          FieldValidPassesIdentityPolicy(f.newPassword);
          match Identity.ChangePassword(u, f.current, f.newPassword, newHash, verify)
          case Rejected(codes) => Reply(s, Page(ErrorsOf(codes)))
          case Ok(v) =>
            var users := UpdateUser(s.store.users, v.(lastPasswordChange := Some(req.now)));
            var history := RecordChange(s.store.history, u.id, newHash, req.now);
            var log := LogFor(s.store.audit, req, u.id, ActPasswordChanged, "Password changed successfully.");
            Reply(State(s.store.(users := users, history := history, audit := log), ClearTransport(SignOut(s.client))),
                  Redirect(ChangedLocation))
  }
}

=== FILE: enable2fa.dfy ===
/** Authenticator enrolment (ApplicationSecurity/Pages/Enable2fa.cshtml.cs):
    the page shows the user's authenticator key in groups and as an
    `otpauth://` URI, turns two-factor sign-in on once a code made from that
    key is accepted, and turns it off again, replacing the key. */
module Enable2fa {
  import opened Base
  import opened Entities
  import opened Identity
  import opened Audit
  import opened Verify2fa
  import opened Forms

  // ---------------------------------------------------------------------
  // The shared key and its two renderings.

  /** Identity's new authenticator keys: 20 random bytes in base32, that is
      32 characters of `A-Z2-7`. */
  predicate GeneratedKey(k: string) {
    |k| == 32 && forall i :: 0 <= i < |k| ==> IsUpper(k[i]) || '2' <= k[i] <= '7'
  }

  /** The key cut into blocks of four separated by one space; a final block
      of one to four characters carries no trailing space. */
  function Groups(k: string): string {
    if |k| <= 4 then k else k[..4] + " " + Groups(k[4..])
  }

  /** `FormatKey`: the key in blocks of four, lower-cased. */
  method FormatKey(key: string) returns (r: string)
    ensures r == Lower(Groups(key))
    ensures ' ' !in key ==> Remove(r, ' ') == Lower(key)
    ensures |key| > 0 ==> |r| == |key| + (|key| - 1) / 4
    ensures ' ' !in key ==> forall i :: 0 <= i < |r| ==> (r[i] == ' ' <==> i % 5 == 4)
    ensures ' ' !in key && |key| > 0 ==> r[0] != ' ' && r[|r| - 1] != ' '
  {
    var grouped := GroupKey(key);
    FormattedKeyFacts(key);
    if ' ' !in key {
      FormattedKeyLayout(key);
    }
    r := Lower(grouped);
  }

  /** The loop of `FormatKey`: walks the key four characters at a time,
      appending each block and a space while more than four remain. */
  method GroupKey(key: string) returns (acc: string)
    ensures acc == Groups(key)
  {
    acc := "";
    var pos := 0;
    while pos + 4 < |key|
      invariant 0 <= pos <= |key|
      invariant acc + Groups(key[pos..]) == Groups(key)
    {
      assert key[pos..][..4] == key[pos..pos + 4] && key[pos..][4..] == key[pos + 4..];
      acc := acc + key[pos..pos + 4] + " ";
      pos := pos + 4;
    }
    if pos < |key| {
      acc := acc + key[pos..];
    } else {
      assert key[pos..] == [];
    }
  }

  lemma FormattedKeyFacts(key: string)
    ensures ' ' !in key ==> Remove(Lower(Groups(key)), ' ') == Lower(key)
    ensures |key| > 0 ==> |Lower(Groups(key))| == |key| + (|key| - 1) / 4
  {
    if ' ' !in key {
      UngroupGroups(key);
      LowerKeepsSpaces(Groups(key));
    }
    if |key| > 0 {
      GroupsLength(key);
    }
  }

  /** The formatted key has a space exactly at every fifth position, so it
      neither starts nor ends with one. */
  lemma FormattedKeyLayout(key: string)
    requires ' ' !in key
    ensures forall i :: 0 <= i < |Groups(key)| ==> (Lower(Groups(key))[i] == ' ' <==> i % 5 == 4)
    ensures |key| > 0 ==> Lower(Groups(key))[0] != ' ' && Lower(Groups(key))[|Groups(key)| - 1] != ' '
  {
    var g := Groups(key);
    forall i | 0 <= i < |g| ensures Lower(g)[i] == ' ' <==> i % 5 == 4 {
      SeparatorPositions(key, i);
    }
    if |key| > 0 {
      GroupsLength(key);
      LastPositionIsNoSeparator(|key|);
    }
  }

  lemma LastPositionIsNoSeparator(n: nat)
    requires n > 0
    ensures (n + (n - 1) / 4 - 1) % 5 != 4
  {
    var m := n - 1;
    assert n + (n - 1) / 4 - 1 == 5 * (m / 4) + m % 4;
  }

  /** Deleting the separators from the grouped key gives the key back. */
  lemma {:induction false} UngroupGroups(k: string)
    requires ' ' !in k
    ensures Remove(Groups(k), ' ') == k
  {
    if |k| <= 4 {
      RemoveAbsent(k, ' ');
    } else {
      assert k == k[..4] + k[4..];
      UngroupGroups(k[4..]);
      RemoveDistributes(k[..4] + " ", Groups(k[4..]), ' ');
      RemoveDistributes(k[..4], " ", ' ');
      RemoveAbsent(k[..4], ' ');
      assert Remove(" ", ' ') == [];
    }
  }

  /** One separator per full block before the last. */
  lemma {:induction false} GroupsLength(k: string)
    requires |k| > 0
    ensures |Groups(k)| == |k| + (|k| - 1) / 4
  {
    if |k| > 4 {
      GroupsLength(k[4..]);
    }
  }

  /** Lower-casing commutes with deleting spaces. */
  lemma {:induction false} LowerKeepsSpaces(s: string)
    ensures Remove(Lower(s), ' ') == Lower(Remove(s, ' '))
  {
    if s != [] {
      assert Lower(s)[1..] == Lower(s[1..]);
      LowerKeepsSpaces(s[1..]);
      if s[0] != ' ' {
        assert Lower([s[0]] + Remove(s[1..], ' ')) == [LowerChar(s[0])] + Lower(Remove(s[1..], ' '));
      }
    }
  }

  /** Where the separators fall: every fifth character, and nowhere else. */
  lemma {:induction false} SeparatorPositions(k: string, i: nat)
    requires ' ' !in k && i < |Groups(k)|
    ensures Groups(k)[i] == ' ' <==> i % 5 == 4
  {
    if |k| > 4 {
      if i >= 5 {
        SeparatorPositions(k[4..], i - 5);
      } else if i < 4 {
        assert Groups(k)[i] == k[i];
      }
    } else {
      assert Groups(k)[i] == k[i];
    }
  }

  const Issuer: string := "AceJobAgency"
  const UriPrefix: string := "otpauth://totp/AceJobAgency:"

  /** The parameters after the secret. */
  const QrTail: string := "&issuer=" + Issuer + "&digits=6"

  /** `GenerateQrCodeUri`: the label is the email as typed, not escaped. */
  function QrUri(email: string, key: string): string {
    UriPrefix + email + "?secret=" + key + QrTail
  }

  /** The characters of `s` before the first `c`. */
  function Before(s: string, c: char): (r: string)
    ensures c !in r && |r| <= |s| && r == s[..|r|]
  {
    if s == [] || s[0] == c then [] else [s[0]] + Before(s[1..], c)
  }

  /** The characters of `s` after the first `c`, none if there is no `c`. */
  function After(s: string, c: char): (r: string)
    ensures |r| < |s| || r == []
  {
    if s == [] then [] else if s[0] == c then s[1..] else After(s[1..], c)
  }

  lemma {:induction false} SplitAtFirst(a: string, c: char, b: string)
    requires c !in a
    ensures Before(a + [c] + b, c) == a && After(a + [c] + b, c) == b
  {
    if a != [] {
      assert (a + [c] + b)[1..] == a[1..] + [c] + b;
      SplitAtFirst(a[1..], c, b);
    }
  }

  /** How an authenticator app reads the URI: the label after the issuer
      prefix runs to the first `?`; the secret is the `secret` parameter
      that opens the query, up to the next `&`. */
  function ParseQrUri(uri: string): (r: Option<(string, string)>)
    ensures r.Some? ==> StartsWith(uri, UriPrefix)
  {
    if !StartsWith(uri, UriPrefix) then None
    else
      var rest := uri[|UriPrefix|..];
      var query := After(rest, '?');
      if !StartsWith(query, "secret=") then None
      else Some((Before(rest, '?'), Before(query[7..], '&')))
  }

  /** The URI the page shows carries the email and the key, for every email
      without a `?` and every key without a `&` (generated keys have
      neither). */
  lemma QrUriRoundTrip(email: string, key: string)
    requires '?' !in email && '&' !in key
    ensures ParseQrUri(QrUri(email, key)) == Some((email, key))
  {
    var t := QrTail[1..];
    assert QrTail == ['&'] + t;
    var query := "secret=" + (key + ['&'] + t);
    var uri := QrUri(email, key);
    assert uri == UriPrefix + (email + ['?'] + query);
    assert uri[|UriPrefix|..] == email + ['?'] + query;
    SplitAtFirst(email, '?', query);
    assert query[7..] == key + ['&'] + t;
    SplitAtFirst(key, '&', t);
  }

  /** The round trip for the keys the page actually issues. */
  lemma GeneratedKeyUriRoundTrip(email: string, key: string)
    requires '?' !in email && GeneratedKey(key)
    ensures ParseQrUri(QrUri(email, key)) == Some((email, key))
  {
    forall i | 0 <= i < |key|
      ensures key[i] != '&'
    {
    }
    QrUriRoundTrip(email, key);
  }

  /** The email is not escaped: in an address with a `?`, the label an
      app reads stops at that `?`, so the URI never carries the address
      back, whatever the key. */
  lemma QuestionMarkEmailBreaksUri(a: string, b: string, key: string)
    requires '?' !in a
    ensures ParseQrUri(QrUri(a + "?" + b, key)) != Some((a + "?" + b, key))
  {
    var email := a + "?" + b;
    var rest := b + "?secret=" + key + QrTail;
    var uri := QrUri(email, key);
    assert uri == UriPrefix + (a + ['?'] + rest);
    assert uri[|UriPrefix|..] == a + ['?'] + rest;
    SplitAtFirst(a, '?', rest);
  }

  /** `a?b@c` passes the form's email check, and its URI is read wrongly. */
  lemma QuestionMarkEmailIsAccepted()
    ensures EmailShaped("a?b@c")
    ensures ParseQrUri(QrUri("a?b@c", "KEY")) != Some(("a?b@c", "KEY"))
  {
    assert AtCount("c") == 0;
    assert AtCount("@c") == 1;
    assert AtCount("a?b@c") == 1;
    assert "a?b@c" == "a" + "?" + "b@c";
    QuestionMarkEmailBreaksUri("a", "b@c", "KEY");
  }

  // ---------------------------------------------------------------------
  // The page.

  /** What the page shows while enrolment is open. */
  datatype Setup = Setup(sharedKey: string, qrUri: string)

  datatype SetupReply = SetupReply(next: State, response: Response, setup: Option<Setup>, status: Option<string>)

  /** `LoadSharedKeyAndQrCodeAsync`: keep the stored key, or store a fresh one
      when there is none. */
  function LoadKey(u: User, freshKey: string): (r: User)
    ensures !IsNullOrEmpty(u.authenticatorKey) ==> r == u
    ensures IsNullOrEmpty(u.authenticatorKey) ==> r == u.(authenticatorKey := Some(freshKey))
  {
    if IsNullOrEmpty(u.authenticatorKey) then u.(authenticatorKey := Some(freshKey)) else u
  }

  /** Loading twice stores one key: the second load shows the key the first
      stored, whatever fresh key it is offered. */
  lemma LoadKeyIdempotent(u: User, k1: string, k2: string)
    requires |k1| > 0
    ensures LoadKey(LoadKey(u, k1), k2) == LoadKey(u, k1)
    ensures LoadKey(u, k1).authenticatorKey.Some?
  {
  }

  /** Load the key for `u`, write it back and describe it. */
  function ShowSetup(s: State, u: User, freshKey: string): (r: (State, Setup))
    requires GeneratedKey(freshKey)
    ensures var v := LoadKey(u, freshKey);
      && r.0 == s.(store := s.store.(users := UpdateUser(s.store.users, v)))
      && r.1 == Setup(Lower(Groups(v.authenticatorKey.value)), QrUri(u.email, v.authenticatorKey.value))
  {
    var v := LoadKey(u, freshKey);
    var key := v.authenticatorKey.value;
    (s.(store := s.store.(users := UpdateUser(s.store.users, v))), Setup(Lower(Groups(key)), QrUri(u.email, key)))
  }

  /** `OnGetAsync`. `freshKey` is the key the library would generate. */
  function Get(s: State, freshKey: string): (r: SetupReply)
    requires GeneratedKey(freshKey)
    ensures CurrentUser(s).None? ==> r == SetupReply(s, Redirect("/Login"), None, None)
    ensures r.next.store.audit == s.store.audit && r.next.store.sessions == s.store.sessions
    ensures r.next.client == s.client && r.next.store.history == s.store.history
    ensures SameIds(s.store.users, r.next.store.users)
    // Enrolment is shown exactly when 2FA is off, and then a key is stored.
    ensures r.setup.Some? <==> CurrentUser(s).Some? && !CurrentUser(s).value.twoFactorEnabled
    ensures r.setup.Some? ==>
      var v := LoadKey(CurrentUser(s).value, freshKey);
      !IsNullOrEmpty(v.authenticatorKey) && r.next.store.users == UpdateUser(s.store.users, v)
    ensures CurrentUser(s).Some? && CurrentUser(s).value.twoFactorEnabled ==> r == SetupReply(s, Page([]), None, None)
  {
    match CurrentUser(s)
    case None => SetupReply(s, Redirect("/Login"), None, None)
    case Some(u) =>
      if u.twoFactorEnabled then SetupReply(s, Page([]), None, None)
      else
        var (t, setup) := ShowSetup(s, u, freshKey);
        SetupReply(t, Page([]), Some(setup), None)
  }

  const EnabledStatus: string := "Two-factor authentication has been enabled successfully!"
  const DisabledStatus: string := "Two-factor authentication has been disabled."

  /** `OnPostEnableAsync`: 2FA is switched on only for a code that the
      authenticator check accepts under the user's stored key. The check
      does not count failures. */
  function PostEnable(s: State, req: Request, code: string, totp: TotpVerifier, freshKey: string): (r: SetupReply)
    requires GeneratedKey(freshKey)
    ensures CurrentUser(s).None? ==> r == SetupReply(s, Redirect("/Login"), None, None)
    ensures r.next.client == s.client && r.next.store.sessions == s.store.sessions
    ensures r.next.store.history == s.store.history
    ensures SameIds(s.store.users, r.next.store.users) && Extends(s.store.audit, r.next.store.audit)
    ensures r.status == Some(EnabledStatus) <==>
      CurrentUser(s).Some? && CodeFieldValid(code)
      && totp(CurrentUser(s).value.authenticatorKey, NormalizeCode(code), req.now)
    ensures r.status == Some(EnabledStatus) ==>
      var u := CurrentUser(s).value;
      && r.next.store.users == UpdateUser(s.store.users, u.(twoFactorEnabled := true))
      && r.next.store.audit == LogFor(s.store.audit, req, u.id, Act2faEnabled, "Two-factor authentication enabled.")
    // Anything else shows enrolment again and writes no audit record.
    ensures r.status != Some(EnabledStatus) ==> r.next.store.audit == s.store.audit
    ensures CurrentUser(s).Some? && r.status != Some(EnabledStatus) ==>
      r.setup.Some? && r.next.store.users == UpdateUser(s.store.users, LoadKey(CurrentUser(s).value, freshKey))
    ensures CurrentUser(s).Some? && CodeFieldValid(code)
            && !totp(CurrentUser(s).value.authenticatorKey, NormalizeCode(code), req.now) ==>
      r.response == Page([ModelError("Input.Code", Text("Invalid verification code."))])
  {
    match CurrentUser(s)
    case None => SetupReply(s, Redirect("/Login"), None, None)
    case Some(u) =>
      if !CodeFieldValid(code) then
        var (t, setup) := ShowSetup(s, u, freshKey);
        SetupReply(t, Page([]), Some(setup), None)
      else if !totp(u.authenticatorKey, NormalizeCode(code), req.now) then
        var (t, setup) := ShowSetup(s, u, freshKey);
        SetupReply(t, Page([ModelError("Input.Code", Text("Invalid verification code."))]), Some(setup), None)
      else
        var users := UpdateUser(s.store.users, u.(twoFactorEnabled := true));
        var log := LogFor(s.store.audit, req, u.id, Act2faEnabled, "Two-factor authentication enabled.");
        SetupReply(s.(store := s.store.(users := users, audit := log)), Page([]), None, Some(EnabledStatus))
  }

  /** `OnPostDisableAsync`: 2FA off, and the key replaced by a new one. */
  function PostDisable(s: State, req: Request, freshKey: string): (r: SetupReply)
    requires GeneratedKey(freshKey)
    ensures CurrentUser(s).None? ==> r == SetupReply(s, Redirect("/Login"), None, None)
    ensures r.next.client == s.client && r.next.store.sessions == s.store.sessions
    ensures r.next.store.history == s.store.history
    ensures SameIds(s.store.users, r.next.store.users) && Extends(s.store.audit, r.next.store.audit)
    ensures CurrentUser(s).Some? ==>
      var u := CurrentUser(s).value;
      && r == SetupReply(r.next, Page([]), None, Some(DisabledStatus))
      && r.next.store.users == UpdateUser(s.store.users, u.(twoFactorEnabled := false, authenticatorKey := Some(freshKey)))
      && r.next.store.audit == LogFor(s.store.audit, req, u.id, Act2faDisabled, "Two-factor authentication disabled.")
  {
    match CurrentUser(s)
    case None => SetupReply(s, Redirect("/Login"), None, None)
    case Some(u) =>
      var v := u.(twoFactorEnabled := false, authenticatorKey := Some(freshKey));
      var log := LogFor(s.store.audit, req, u.id, Act2faDisabled, "Two-factor authentication disabled.");
      SetupReply(s.(store := s.store.(users := UpdateUser(s.store.users, v), audit := log)),
                 Page([]), None, Some(DisabledStatus))
  }
}

=== FILE: entities.dfy ===
/** The records of the account store (users, password history, session rows,
    audit log), the per-client state carried by cookies (the authentication
    principal, the pending two-factor user, the transport session), and the
    shapes of a request and of a page handler's response. */
module Entities {
  import opened Base

  /** Registration profile fields of `ApplicationUser`. */
  datatype Profile = Profile(
    firstName: string,
    lastName: string,
    gender: string,
    encryptedNric: string,
    dateOfBirth: int,
    resumePath: Option<string>,
    resumeFileName: Option<string>,
    whoAmI: string)

  /** An Identity user with the application's extra columns. The
      authenticator key lives in Identity's token table; it is kept on the
      user here. */
  datatype User = User(
    id: UserId,
    userName: string,
    email: string,
    passwordHash: string,
    profile: Profile,
    sessionId: Option<string>,
    lastPasswordChange: Option<int>,
    createdAt: int,
    twoFactorEnabled: bool,
    authenticatorKey: Option<string>,
    lockoutEnd: Option<int>,
    accessFailedCount: nat)

  datatype HistoryRow = HistoryRow(userId: UserId, passwordHash: string, createdDate: int)

  datatype SessionRow = SessionRow(
    userId: UserId,
    sessionId: string,
    ipAddress: Option<string>,
    userAgent: Option<string>,
    createdAt: int,
    lastActiveAt: int,
    isActive: bool)

  datatype AuditRecord = AuditRecord(
    userId: UserId,
    action: string,
    timestamp: int,
    ipAddress: Option<string>,
    details: Option<string>)

  datatype Store = Store(
    users: seq<User>,
    history: seq<HistoryRow>,
    sessions: seq<SessionRow>,
    audit: seq<AuditRecord>)

  /** What a browser carries between requests: the Identity application
      cookie (`principal`), the Identity two-factor cookie (`twoFactorUser`)
      and the server-side transport session keyed by its cookie. */
  datatype Client = Client(
    principal: Option<UserId>,
    twoFactorUser: Option<UserId>,
    transport: map<string, string>)

  datatype State = State(store: Store, client: Client)

  /** The connection facts `HttpContext` offers the core. */
  datatype HttpContext = HttpContext(remoteIp: Option<string>, userAgent: string)

  /** One request: its path, the clock reading, and its connection. */
  datatype Request = Request(path: string, now: int, http: HttpContext)

  /** Texts shown through `ModelState`; library messages stay symbolic. */
  datatype Message =
    | Text(text: string)
    | IdentityFailure(code: string)
    | LockedUntilLocal(lockoutEnd: int)

  datatype ModelError = ModelError(key: string, message: Message)

  datatype Response = Page(errors: seq<ModelError>) | Redirect(location: string)

  datatype Reply = Reply(next: State, response: Response)

  /** The transport-session key that ties a browser to a session row. */
  const SessionKey: string := "SessionId"

  /** `SignInManager.SignOutAsync`: drops the application and two-factor
      cookies. */
  function SignOut(c: Client): Client {
    c.(principal := None, twoFactorUser := None)
  }

  /** `HttpContext.Session.Clear()`. */
  function ClearTransport(c: Client): Client {
    c.(transport := map[])
  }

  /** `HttpContext.Session.GetString("SessionId")`. */
  function TransportSessionId(c: Client): Option<string> {
    if SessionKey in c.transport then Some(c.transport[SessionKey]) else None
  }

  /** `UserManager.FindByIdAsync`: the user with this id. */
  function FindById(users: seq<User>, id: UserId): (r: Option<User>)
    ensures r.Some? ==> r.value in users && r.value.id == id
    ensures r.None? <==> forall u :: u in users ==> u.id != id
  {
    if users == [] then None
    else if users[0].id == id then Some(users[0])
    else FindById(users[1..], id)
  }

  /** `UserManager.FindByEmailAsync`: lookup on the upper-cased email. */
  function FindByEmail(users: seq<User>, email: string): (r: Option<User>)
    ensures r.Some? ==> r.value in users && Upper(r.value.email) == Upper(email)
    ensures r.None? <==> forall u :: u in users ==> Upper(u.email) != Upper(email)
  {
    if users == [] then None
    else if Upper(users[0].email) == Upper(email) then Some(users[0])
    else FindByEmail(users[1..], email)
  }

  /** `UserManager.FindByNameAsync`: lookup on the upper-cased user name. */
  function FindByName(users: seq<User>, name: string): (r: Option<User>)
    ensures r.Some? ==> r.value in users && Upper(r.value.userName) == Upper(name)
    ensures r.None? <==> forall u :: u in users ==> Upper(u.userName) != Upper(name)
  {
    if users == [] then None
    else if Upper(users[0].userName) == Upper(name) then Some(users[0])
    else FindByName(users[1..], name)
  }

  /** `UserManager.GetUserAsync(User)`: the signed-in principal's user. */
  function CurrentUser(s: State): Option<User> {
    if s.client.principal.None? then None else FindById(s.store.users, s.client.principal.value)
  }

  /** `UserManager.UpdateAsync(u)`: every row with u's id becomes u. */
  function UpdateUser(users: seq<User>, u: User): seq<User> {
    seq(|users|, i requires 0 <= i < |users| => if users[i].id == u.id then u else users[i])
  }

  /** Two user tables hold the same ids in the same order. */
  predicate SameIds(a: seq<User>, b: seq<User>) {
    |a| == |b| && forall i :: 0 <= i < |a| ==> a[i].id == b[i].id
  }

  /** Writing a user back never adds, drops or renumbers a row. */
  lemma UpdateUserSameIds(users: seq<User>, u: User)
    ensures SameIds(users, UpdateUser(users, u))
  {
  }

  /** Two user tables hold the same accounts: same order, same ids, same
      emails and user names. Everything else may differ. */
  predicate SameAccounts(a: seq<User>, b: seq<User>) {
    |a| == |b| &&
    forall i :: 0 <= i < |a| ==>
      a[i].id == b[i].id && a[i].email == b[i].email && a[i].userName == b[i].userName
  }

  lemma UpdateUserKeepsAccounts(users: seq<User>, old_: User, u: User)
    requires old_ in users
    requires u.id == old_.id && u.email == old_.email && u.userName == old_.userName
    requires forall i, j :: 0 <= i < j < |users| ==> users[i].id != users[j].id
    ensures SameAccounts(users, UpdateUser(users, u))
    ensures FindById(UpdateUser(users, u), u.id) == Some(u)
  {
    var r := UpdateUser(users, u);
    forall i | 0 <= i < |users| && users[i].id == u.id
      ensures users[i] == old_
    {
      var k :| 0 <= k < |users| && users[k] == old_;
    }
    FindByIdUpdated(users, u);
  }

  lemma {:induction false} FindByIdUpdated(users: seq<User>, u: User)
    requires exists i :: 0 <= i < |users| && users[i].id == u.id
    ensures FindById(UpdateUser(users, u), u.id) == Some(u)
  {
    var r := UpdateUser(users, u);
    if users[0].id == u.id {
      assert r[0] == u;
    } else {
      var i :| 0 <= i < |users| && users[i].id == u.id;
      assert i > 0;
      assert r[1..] == UpdateUser(users[1..], u);
      assert users[1..][i - 1].id == u.id;
      FindByIdUpdated(users[1..], u);
    }
  }
}

=== FILE: forms.dfy ===
/** The data-annotation checks the pages' input models carry, as they decide
    `ModelState.IsValid`. */
module Forms {
  import opened Base

  /** `[Required]` on a string: present and not only whitespace. */
  predicate Required(s: string) {
    !IsBlank(s)
  }

  /** The number of `@` signs in `s`. */
  function AtCount(s: string): (r: nat)
    ensures r <= |s|
    ensures r == 0 <==> '@' !in s
  {
    if s == [] then 0 else (if s[0] == '@' then 1 else 0) + AtCount(s[1..])
  }

  /** `[EmailAddress]`: no line break, and exactly one `@`, which is neither
      the first nor the last character. */
  predicate EmailShaped(s: string) {
    '\r' !in s && '\n' !in s && AtCount(s) == 1 && 0 < |s|
    && s[0] != '@' && s[|s| - 1] != '@'
  }

  lemma EmailShapedExamples()
    ensures EmailShaped("a@b.c")
    ensures !EmailShaped("a.b")
    ensures !EmailShaped("@b")
    ensures !EmailShaped("a@@b")
  {
    assert AtCount("b.c") == 0;
    assert AtCount("a@b.c") == 1;
    assert AtCount("a.b") == 0;
    assert AtCount("@b") == 1;
    assert AtCount("a@@b") == 2;
  }
}

=== FILE: gate.dfy ===
/** The request gate the service installs after authentication
    (ApplicationSecurity/Program.cs:110-179): for a signed-in browser it
    checks that the user still exists, that the transport session names an
    active session row of that user, touches the row, and sends users with an
    expired password to the change-password page. */
module Gate {
  import opened Base
  import opened Entities
  import opened Sessions
  import opened Policy

  datatype Verdict = Proceed | Bounce(location: string)

  datatype GateReply = GateReply(next: State, verdict: Verdict)

  const LoginPath: string := "/Login"
  const SessionExpiredPath: string := "/Login?message=session_expired"
  const PasswordExpiredPath: string := "/ChangePassword?message=password_expired"

  /** Paths the gate lets through untouched, compared lower-cased. */
  predicate Exempt(path: string) {
    var p := Lower(path);
    p == "/logout" || StartsWith(p, "/statuscode") || p == "/error"
  }

  /** The transport session names an active row of this user. */
  predicate HasLiveSession(s: State, u: User) {
    var sid := TransportSessionId(s.client);
    !IsNullOrEmpty(sid) && FindActive(s.store.sessions, sid.value, u.id).Some?
  }

  function Gate(s: State, req: Request): (r: GateReply)
    // Anonymous requests and exempt paths pass with no state change.
    ensures s.client.principal.None? ==> r == GateReply(s, Proceed)
    ensures Exempt(req.path) ==> r == GateReply(s, Proceed)
    // Only the session table can change, and only one row's LastActiveAt.
    ensures r.next.store == s.store.(sessions := r.next.store.sessions)
    ensures |r.next.store.sessions| == |s.store.sessions|
    ensures forall j :: 0 <= j < |s.store.sessions| ==>
      r.next.store.sessions[j] == s.store.sessions[j].(lastActiveAt := r.next.store.sessions[j].lastActiveAt)
    // A principal whose user is gone is signed out.
    ensures s.client.principal.Some? && !Exempt(req.path) && CurrentUser(s).None? ==>
      r == GateReply(State(s.store, SignOut(s.client)), Bounce(LoginPath))
    // No transport session id: signed out, transport session kept.
    ensures CurrentUser(s).Some? && !Exempt(req.path) && IsNullOrEmpty(TransportSessionId(s.client)) ==>
      r == GateReply(State(s.store, SignOut(s.client)), Bounce(SessionExpiredPath))
    // An id that names no active row of this user: signed out and cleared.
    ensures CurrentUser(s).Some? && !Exempt(req.path) && !IsNullOrEmpty(TransportSessionId(s.client))
            && !HasLiveSession(s, CurrentUser(s).value) ==>
      r == GateReply(State(s.store, ClearTransport(SignOut(s.client))), Bounce(SessionExpiredPath))
    // A live session: its first matching row is touched, nothing else.
    ensures CurrentUser(s).Some? && !Exempt(req.path) && HasLiveSession(s, CurrentUser(s).value) ==>
      var i := FindActive(s.store.sessions, TransportSessionId(s.client).value, CurrentUser(s).value.id).value;
      r.next == State(s.store.(sessions := Touch(s.store.sessions, i, req.now)), s.client)
    // The password-age redirect, both directions.
    ensures r.verdict == Bounce(PasswordExpiredPath) <==>
      && CurrentUser(s).Some? && !Exempt(req.path) && HasLiveSession(s, CurrentUser(s).value)
      && Lower(req.path) != "/changepassword"
      && PasswordExpired(CurrentUser(s).value.lastPasswordChange, req.now)
    // Whatever proceeds for a signed-in user on a guarded path holds a live session.
    ensures r.verdict == Proceed && s.client.principal.Some? && !Exempt(req.path) ==>
      CurrentUser(s).Some? && HasLiveSession(s, CurrentUser(s).value)
  {
    if s.client.principal.None? then GateReply(s, Proceed)
    else
      var path := Lower(req.path);
      if path == "/logout" || StartsWith(path, "/statuscode") || path == "/error" then
        GateReply(s, Proceed)
      else
        match FindById(s.store.users, s.client.principal.value)
        case None => GateReply(State(s.store, SignOut(s.client)), Bounce(LoginPath))
        case Some(u) =>
          var sid := TransportSessionId(s.client);
          if IsNullOrEmpty(sid) then
            GateReply(State(s.store, SignOut(s.client)), Bounce(SessionExpiredPath))
          else
            match FindActive(s.store.sessions, sid.value, u.id)
            case None =>
              GateReply(State(s.store, ClearTransport(SignOut(s.client))), Bounce(SessionExpiredPath))
            case Some(i) =>
              var touched := State(s.store.(sessions := Touch(s.store.sessions, i, req.now)), s.client);
              if path != "/changepassword" && PasswordExpired(u.lastPasswordChange, req.now) then
                GateReply(touched, Bounce(PasswordExpiredPath))
              else
                GateReply(touched, Proceed)
  }

  /** After the startup purge no browser gets past the gate on a guarded
      path, whatever session id it still carries: it is signed out and sent
      to log in again. */
  lemma StartupPurgeRejectsEveryBrowser(st: Store, c: Client, req: Request)
    requires c.principal.Some? && !Exempt(req.path)
    ensures var r := Gate(State(PurgeOnStartup(st), c), req);
      r.verdict.Bounce? && r.verdict != Bounce(PasswordExpiredPath) && r.next.client.principal.None?
  {
    var s := State(PurgeOnStartup(st), c);
    if CurrentUser(s).Some? && !IsNullOrEmpty(TransportSessionId(c)) {
      assert !HasLiveSession(s, CurrentUser(s).value);
    }
  }

  /** The password-age redirect follows the 90-day boundary: a user who
      passes the session check on a guarded path other than the
      change-password page is redirected 91 days after the last change and
      not 89 days after it. */
  lemma ExpiryRedirectBoundary(s: State, path: string, http: HttpContext, last: int)
    requires CurrentUser(s).Some? && CurrentUser(s).value.lastPasswordChange == Some(last)
    requires HasLiveSession(s, CurrentUser(s).value)
    requires !Exempt(path) && Lower(path) != "/changepassword"
    ensures Gate(s, Request(path, last + 91 * TicksPerDay, http)).verdict == Bounce(PasswordExpiredPath)
    ensures Gate(s, Request(path, last + 89 * TicksPerDay, http)).verdict == Proceed
  {
    ExpiryBoundary(last);
  }
}

=== FILE: html.dfy ===
/** `WebUtility.HtmlEncode`, which registration applies to the free-text
    profile fields before they are stored. */
module Html {

  /** The decimal digits of `n`, most significant first. */
  function Decimal(n: nat): (r: string)
    ensures |r| > 0
    ensures forall i :: 0 <= i < |r| ==> '0' <= r[i] <= '9'
  {
    if n < 10 then [('0' as int + n) as char] else Decimal(n / 10) + [('0' as int + n % 10) as char]
  }

  /** Characters written as a numeric reference: Latin-1 from U+00A0, and
      everything outside the Basic Multilingual Plane (a surrogate pair in
      .NET strings). */
  predicate NumericallyEncoded(c: char) {
    (160 <= c as int < 256) || c as int >= 0x10000
  }

  /** Characters the encoder rewrites. */
  predicate NeedsEncoding(c: char) {
    c == '<' || c == '>' || c == '"' || c == '\'' || c == '&' || NumericallyEncoded(c)
  }

  /** The markup-significant characters. */
  predicate IsMarkup(c: char) {
    c == '<' || c == '>' || c == '"' || c == '\''
  }

  function EncodeChar(c: char): (r: string)
    ensures |r| > 0
    ensures forall i :: 0 <= i < |r| ==> !IsMarkup(r[i])
    ensures !NeedsEncoding(c) <==> r == [c]
    ensures NeedsEncoding(c) ==> r[0] == '&' && r[|r| - 1] == ';'
  {
    if c == '<' then "&lt;"
    else if c == '>' then "&gt;"
    else if c == '"' then "&quot;"
    else if c == '\'' then "&#39;"
    else if c == '&' then "&amp;"
    else if NumericallyEncoded(c) then "&#" + Decimal(c as int) + ";"
    else [c]
  }

  function HtmlEncode(s: string): (r: string)
    ensures |r| >= |s|
    ensures forall i :: 0 <= i < |r| ==> !IsMarkup(r[i])
    ensures (forall i :: 0 <= i < |s| ==> !NeedsEncoding(s[i])) ==> r == s
  {
    if s == [] then []
    else
      var head := EncodeChar(s[0]);
      var tail := HtmlEncode(s[1..]);
      assert forall i :: 0 <= i < |head + tail| ==> (head + tail)[i] == if i < |head| then head[i] else tail[i - |head|];
      if forall i :: 0 <= i < |s| ==> !NeedsEncoding(s[i]) then
        assert forall i :: 0 <= i < |s[1..]| ==> s[1..][i] == s[i + 1];
        assert s == [s[0]] + s[1..];
        head + tail
      else
        head + tail
  }

  // ---------------------------------------------------------------------
  // The inverse: a decoder for exactly the references the encoder writes.

  /** The value of a run of decimal digits. */
  function DecimalValue(d: string): (r: nat)
    requires forall i :: 0 <= i < |d| ==> '0' <= d[i] <= '9'
  {
    if d == [] then 0 else DecimalValue(d[..|d| - 1]) * 10 + (d[|d| - 1] as int - '0' as int)
  }

  lemma {:induction false} DecimalRoundTrip(n: nat)
    ensures DecimalValue(Decimal(n)) == n
  {
    if n >= 10 {
      var d := Decimal(n / 10) + [('0' as int + n % 10) as char];
      assert d[..|d| - 1] == Decimal(n / 10);
      DecimalRoundTrip(n / 10);
    }
  }

  /** The number of decimal digits that start `s`. */
  function DigitRun(s: string): (k: nat)
    ensures k <= |s|
    ensures forall i :: 0 <= i < k ==> '0' <= s[i] <= '9'
    ensures k < |s| ==> !('0' <= s[k] <= '9')
  {
    if s == [] || !('0' <= s[0] <= '9') then 0 else 1 + DigitRun(s[1..])
  }

  /** `WebUtility.HtmlDecode`, restricted to the references above; any other
      character stands for itself. */
  function HtmlDecode(s: string): string
    decreases |s|
  {
    if s == [] then []
    else if StartsWith(s, "&lt;") then "<" + HtmlDecode(s[4..])
    else if StartsWith(s, "&gt;") then ">" + HtmlDecode(s[4..])
    else if StartsWith(s, "&quot;") then "\"" + HtmlDecode(s[6..])
    else if StartsWith(s, "&amp;") then "&" + HtmlDecode(s[5..])
    else if StartsWith(s, "&#") && 0 < DigitRun(s[2..]) && 2 + DigitRun(s[2..]) < |s|
            && s[2 + DigitRun(s[2..])] == ';'
            && ValidScalar(DecimalValue(s[2..2 + DigitRun(s[2..])])) then
      var k := DigitRun(s[2..]);
      [DecimalValue(s[2..2 + k]) as char] + HtmlDecode(s[3 + k..])
    else [s[0]] + HtmlDecode(s[1..])
  }

  predicate ValidScalar(n: nat) {
    n < 0xD800 || (0xE000 <= n < 0x11_0000)
  }

  predicate StartsWith(s: string, p: string) {
    |p| <= |s| && s[..|p|] == p
  }

  /** Decoding undoes encoding: the stored text means what was typed. */
  lemma {:induction false} HtmlRoundTrip(s: string)
    ensures HtmlDecode(HtmlEncode(s)) == s
  {
    if s != [] {
      HtmlRoundTrip(s[1..]);
      DecodeChar(s[0], HtmlEncode(s[1..]));
    }
  }

  lemma DecodeChar(c: char, rest: string)
    ensures HtmlDecode(EncodeChar(c) + rest) == [c] + HtmlDecode(rest)
  {
    if c == '<' {
      DecodeNamed("&lt;", "<", rest);
    } else if c == '>' {
      DecodeNamed("&gt;", ">", rest);
    } else if c == '"' {
      DecodeNamed("&quot;", "\"", rest);
    } else if c == '&' {
      DecodeNamed("&amp;", "&", rest);
    } else if c == '\'' || NumericallyEncoded(c) {
      DecodeNumeric(c, rest);
    } else {
      DecodePlain(c, rest);
    }
  }

  lemma DecodeNamed(name: string, c: string, rest: string)
    requires (name, c) in {("&lt;", "<"), ("&gt;", ">"), ("&quot;", "\""), ("&amp;", "&")}
    ensures HtmlDecode(name + rest) == c + HtmlDecode(rest)
  {
    var e := name + rest;
    assert e[..|name|] == name && e[|name|..] == rest;
    if name == "&gt;" {
      assert e[1] == 'g' && "&lt;"[1] == 'l';
    } else if name == "&quot;" {
      assert e[1] == 'q';
      assert !StartsWith(e, "&lt;") by { assert e[..4][1] == 'q'; }
      assert !StartsWith(e, "&gt;") by { assert e[..4][1] == 'q'; }
    } else if name == "&amp;" {
      assert e[1] == 'a';
      assert !StartsWith(e, "&lt;") by { assert e[..4][1] == 'a'; }
      assert !StartsWith(e, "&gt;") by { assert e[..4][1] == 'a'; }
      assert !StartsWith(e, "&quot;") by { if |e| >= 6 { assert e[..6][1] == 'a'; } }
    }
  }

  lemma DecodeNumeric(c: char, rest: string)
    requires c == '\'' || NumericallyEncoded(c)
    ensures HtmlDecode(EncodeChar(c) + rest) == [c] + HtmlDecode(rest)
  {
    var d := Decimal(c as int);
    assert EncodeChar(c) == "&#" + d + ";" by {
      if c == '\'' { assert Decimal(39) == "39"; }
    }
    DecimalRoundTrip(c as int);
    assert ValidScalar(DecimalValue(d));
    NumericReference(d, rest);
  }

  lemma DecodePlain(c: char, rest: string)
    requires !NeedsEncoding(c)
    ensures HtmlDecode(EncodeChar(c) + rest) == [c] + HtmlDecode(rest)
  {
    var e := [c] + rest;
    assert e[0] == c && e[1..] == rest;
    assert !StartsWith(e, "&lt;") && !StartsWith(e, "&gt;") && !StartsWith(e, "&quot;") by {
      assert forall p :: 0 < |p| <= |e| && p[0] == '&' ==> e[..|p|] != p by {
        forall p | 0 < |p| <= |e| && p[0] == '&' ensures e[..|p|] != p {
          assert e[..|p|][0] == c;
        }
      }
    }
    assert !StartsWith(e, "&amp;") && !StartsWith(e, "&#") by {
      assert forall p :: 0 < |p| <= |e| && p[0] == '&' ==> e[..|p|] != p by {
        forall p | 0 < |p| <= |e| && p[0] == '&' ensures e[..|p|] != p {
          assert e[..|p|][0] == c;
        }
      }
    }
  }

  /** How the decoder reads `&#digits;` followed by anything. */
  lemma NumericReference(d: string, rest: string)
    requires |d| > 0 && forall i :: 0 <= i < |d| ==> '0' <= d[i] <= '9'
    requires ValidScalar(DecimalValue(d))
    ensures HtmlDecode("&#" + d + ";" + rest) == [DecimalValue(d) as char] + HtmlDecode(rest)
  {
    var e := "&#" + d + ";" + rest;
    var k := |d|;
    assert e[2..] == d + (";" + rest);
    DigitRunOf(d, ";" + rest);
    assert DigitRun(e[2..]) == k;
    assert e[2..2 + k] == d && e[2 + k] == ';' && e[3 + k..] == rest;
    assert StartsWith(e, "&#") by { assert e[..2] == "&#"; }
    assert 0 < DigitRun(e[2..]) && 2 + DigitRun(e[2..]) < |e|;
    NotNamed(e);
  }

  /** A string opening with `&#` starts with none of the named references. */
  lemma NotNamed(e: string)
    requires |e| >= 2 && e[0] == '&' && e[1] == '#'
    ensures !StartsWith(e, "&lt;") && !StartsWith(e, "&gt;") && !StartsWith(e, "&quot;") && !StartsWith(e, "&amp;")
  {
    assert forall p :: |p| >= 2 && p[1] != '#' && |p| <= |e| ==> e[..|p|] != p by {
      forall p | |p| >= 2 && p[1] != '#' && |p| <= |e| ensures e[..|p|] != p {
        assert e[..|p|][1] == '#';
      }
    }
  }

  lemma {:induction false} DigitRunOf(d: string, rest: string)
    requires forall i :: 0 <= i < |d| ==> '0' <= d[i] <= '9'
    requires rest != [] && !('0' <= rest[0] <= '9')
    ensures DigitRun(d + rest) == |d|
  {
    if d != [] {
      assert (d + rest)[1..] == d[1..] + rest;
      DigitRunOf(d[1..], rest);
    }
  }
}

=== FILE: identity.dfy ===
/** The parts of ASP.NET Core Identity the pages call, under the options the
    service configures at startup (ApplicationSecurity/Program.cs:24-34):
    password validation, the failed-access counter and timed lockout, and the
    sign-in results the login pages dispatch on.

    The library's code is not part of this model's source; its behaviour is
    written out from the configured constants and the library's documented
    semantics. Password-hash checks and TOTP checks stay oracles. */
module Identity {
  import opened Base
  import opened Entities

  const RequiredLength: nat := 12
  const MaxFailedAccessAttempts: nat := 3
  const DefaultLockoutTimeSpan: int := 15 * TicksPerMinute

  /** `PasswordHasher.VerifyHashedPassword(hash, password) == Success`. */
  type PasswordVerifier = (string, string) -> bool

  /** The authenticator-token check (RFC 6238 inside Identity), given the
      stored key, the submitted code and the clock. */
  type TotpVerifier = (Option<string>, string, int) -> bool

  // ---------------------------------------------------------------------
  // Password validator (RequireDigit, RequireLowercase, RequireUppercase,
  // RequireNonAlphanumeric, RequiredLength = 12).

  predicate HasLower(p: string) { exists i :: 0 <= i < |p| && IsLower(p[i]) }
  predicate HasUpper(p: string) { exists i :: 0 <= i < |p| && IsUpper(p[i]) }
  predicate HasDigit(p: string) { exists i :: 0 <= i < |p| && IsDigit(p[i]) }
  predicate HasNonAlphanumeric(p: string) {
    exists i :: 0 <= i < |p| && !(IsLetter(p[i]) || IsDigit(p[i]))
  }

  /** The error codes `PasswordValidator` reports, in its order. */
  function PasswordErrors(p: string): (r: seq<string>)
    ensures r == [] <==>
      |p| >= RequiredLength && !IsBlank(p) && HasNonAlphanumeric(p)
      && HasDigit(p) && HasLower(p) && HasUpper(p)
  {
    (if IsBlank(p) || |p| < RequiredLength then ["PasswordTooShort"] else [])
    + (if !HasNonAlphanumeric(p) then ["PasswordRequiresNonAlphanumeric"] else [])
    + (if !HasDigit(p) then ["PasswordRequiresDigit"] else [])
    + (if !HasLower(p) then ["PasswordRequiresLower"] else [])
    + (if !HasUpper(p) then ["PasswordRequiresUpper"] else [])
    + (if |p| == 0 then ["PasswordRequiresUniqueChars"] else [])
  }

  datatype IdentityResult = Ok(user: User) | Rejected(codes: seq<string>)

  /** The pages copy every library error into `ModelState` under the empty
      key, in order. */
  function ErrorsOf(codes: seq<string>): (r: seq<ModelError>)
    ensures |r| == |codes|
  {
    seq(|codes|, i requires 0 <= i < |codes| => ModelError("", IdentityFailure(codes[i])))
  }

  /** `UserManager.ChangePasswordAsync`: the current password must verify,
      then the new one must pass validation; on success the stored hash is
      the freshly computed `newHash`. */
  function ChangePassword(u: User, current: string, newPassword: string, newHash: string,
                          verify: PasswordVerifier): (r: IdentityResult)
    ensures r.Ok? <==> verify(u.passwordHash, current) && PasswordErrors(newPassword) == []
    ensures r.Ok? ==> r.user == u.(passwordHash := newHash)
    ensures !verify(u.passwordHash, current) ==> r == Rejected(["PasswordMismatch"])
  {
    if !verify(u.passwordHash, current) then Rejected(["PasswordMismatch"])
    else if PasswordErrors(newPassword) != [] then Rejected(PasswordErrors(newPassword))
    else Ok(u.(passwordHash := newHash))
  }

  /** `UserManager.ResetPasswordAsync`: the reset token must be valid, then
      the new password must pass validation. */
  function ResetPassword(u: User, tokenValid: bool, newPassword: string, newHash: string): (r: IdentityResult)
    ensures r.Ok? <==> tokenValid && PasswordErrors(newPassword) == []
    ensures r.Ok? ==> r.user == u.(passwordHash := newHash)
    ensures !tokenValid ==> r == Rejected(["InvalidToken"])
  {
    if !tokenValid then Rejected(["InvalidToken"])
    else if PasswordErrors(newPassword) != [] then Rejected(PasswordErrors(newPassword))
    else Ok(u.(passwordHash := newHash))
  }

  // ---------------------------------------------------------------------
  // Lockout (MaxFailedAccessAttempts = 3, DefaultLockoutTimeSpan = 15 min;
  // every user is created with lockout enabled).

  /** `UserManager.IsLockedOutAsync`: the lockout end is not yet past. */
  predicate IsLockedOut(u: User, now: int) {
    u.lockoutEnd.Some? && u.lockoutEnd.value >= now
  }

  /** Only the lockout columns differ between the two users. */
  predicate SameExceptLockout(u: User, v: User) {
    v == u.(lockoutEnd := v.lockoutEnd, accessFailedCount := v.accessFailedCount)
  }

  /** `UserManager.AccessFailedAsync`: count the failure; the failure that
      reaches the threshold locks the account for the lockout span and
      resets the count. */
  function AccessFailed(u: User, now: int): (r: User)
    ensures SameExceptLockout(u, r)
    ensures r.accessFailedCount < MaxFailedAccessAttempts
    ensures !IsLockedOut(u, now) ==>
      (IsLockedOut(r, now) <==> u.accessFailedCount + 1 >= MaxFailedAccessAttempts)
    ensures IsLockedOut(r, now) && !IsLockedOut(u, now) ==>
      r.lockoutEnd == Some(now + DefaultLockoutTimeSpan) && r.accessFailedCount == 0
    ensures !IsLockedOut(r, now) ==> r.accessFailedCount == u.accessFailedCount + 1
  {
    if u.accessFailedCount + 1 < MaxFailedAccessAttempts then
      u.(accessFailedCount := u.accessFailedCount + 1)
    else
      u.(lockoutEnd := Some(now + DefaultLockoutTimeSpan), accessFailedCount := 0)
  }

  /** Two-factor sign-in applies when it is enabled and the authenticator
      provider can produce codes (a key is stored). The e-mail and phone
      providers never apply: nothing in the service confirms either. */
  predicate TwoFactorActive(u: User) {
    u.twoFactorEnabled && !IsNullOrEmpty(u.authenticatorKey)
  }

  datatype SignInResult = SignedIn | RequiresTwoFactor | LockedOut | Failed

  datatype SignIn = SignIn(result: SignInResult, user: User)

  /** `SignInManager.PasswordSignInAsync(..., lockoutOnFailure: true)` for an
      existing user: lockout pre-check, password check, counter update. */
  function PasswordSignIn(u: User, password: string, now: int, verify: PasswordVerifier): (r: SignIn)
    ensures SameExceptLockout(u, r.user)
    ensures IsLockedOut(u, now) ==> r == SignIn(LockedOut, u)
    ensures r.result == SignedIn <==>
      !IsLockedOut(u, now) && verify(u.passwordHash, password) && !TwoFactorActive(u)
    ensures r.result == RequiresTwoFactor <==>
      !IsLockedOut(u, now) && verify(u.passwordHash, password) && TwoFactorActive(u)
    ensures r.result == SignedIn ==> r.user.accessFailedCount == 0
    ensures r.result == RequiresTwoFactor ==> r.user == u
    ensures !IsLockedOut(u, now) && !verify(u.passwordHash, password) ==>
      r.user == AccessFailed(u, now)
      && (r.result == LockedOut <==> u.accessFailedCount + 1 >= MaxFailedAccessAttempts)
  {
    if IsLockedOut(u, now) then SignIn(LockedOut, u)
    else if verify(u.passwordHash, password) then
      if TwoFactorActive(u) then SignIn(RequiresTwoFactor, u)
      else SignIn(SignedIn, u.(accessFailedCount := 0))
    else
      var v := AccessFailed(u, now);
      SignIn(if IsLockedOut(v, now) then LockedOut else Failed, v)
  }

  /** `SignInManager.TwoFactorAuthenticatorSignInAsync` for the pending user:
      lockout pre-check, code check, and the same counter as passwords. A
      rejected code is reported as `Failed` even when it sets the lock; the
      method does not check the lock again after counting the failure. */
  function TwoFactorSignIn(u: User, code: string, now: int, totp: TotpVerifier): (r: SignIn)
    ensures SameExceptLockout(u, r.user)
    ensures r.result != RequiresTwoFactor
    ensures IsLockedOut(u, now) ==> r == SignIn(LockedOut, u)
    ensures r.result == SignedIn <==> !IsLockedOut(u, now) && totp(u.authenticatorKey, code, now)
    ensures r.result == SignedIn ==> r.user.accessFailedCount == 0
    // Unlike the password path, the failure that sets the lock is reported
    // as a plain failure: only the pre-check reports a lock.
    ensures r.result == LockedOut <==> IsLockedOut(u, now)
    ensures !IsLockedOut(u, now) && !totp(u.authenticatorKey, code, now) ==>
      r == SignIn(Failed, AccessFailed(u, now))
  {
    if IsLockedOut(u, now) then SignIn(LockedOut, u)
    else if totp(u.authenticatorKey, code, now) then SignIn(SignedIn, u.(accessFailedCount := 0))
    else SignIn(Failed, AccessFailed(u, now))
  }

  /** A lockout set at `t` holds through `t + 15 min` and is over after it. */
  lemma LockoutWindow(u: User, t: int, later: int)
    requires !IsLockedOut(u, t) && u.accessFailedCount == MaxFailedAccessAttempts - 1
    ensures IsLockedOut(AccessFailed(u, t), later) <==> later <= t + DefaultLockoutTimeSpan
  {
  }

  /** Three wrong passwords in a row from a clean, unlocked account lock it;
      the third attempt reports the lock, and a fourth attempt within the
      next 15 minutes is refused whatever password it carries. */
  lemma ThreeFailuresLockTheAccount(u: User, p1: string, p2: string, p3: string, p4: string,
                                    t1: int, t2: int, t3: int, t4: int, verify: PasswordVerifier)
    requires u.accessFailedCount == 0 && !IsLockedOut(u, t1)
    requires t1 <= t2 <= t3 <= t4 <= t3 + DefaultLockoutTimeSpan
    requires !verify(u.passwordHash, p1) && !verify(u.passwordHash, p2) && !verify(u.passwordHash, p3)
    ensures var a1 := PasswordSignIn(u, p1, t1, verify);
            var a2 := PasswordSignIn(a1.user, p2, t2, verify);
            var a3 := PasswordSignIn(a2.user, p3, t3, verify);
            var a4 := PasswordSignIn(a3.user, p4, t4, verify);
            a1.result == Failed && a2.result == Failed && a3.result == LockedOut
            && a4.result == LockedOut && a3.user.lockoutEnd == Some(t3 + DefaultLockoutTimeSpan)
  {
    var a1 := PasswordSignIn(u, p1, t1, verify);
    assert a1.user.passwordHash == u.passwordHash && a1.user.accessFailedCount == 1;
    assert !IsLockedOut(a1.user, t2);
    var a2 := PasswordSignIn(a1.user, p2, t2, verify);
    assert a2.user.passwordHash == u.passwordHash && a2.user.accessFailedCount == 2;
    assert !IsLockedOut(a2.user, t3);
  }
}

=== FILE: login.dfy ===
/** The login page (ApplicationSecurity/Pages/Login.cshtml.cs): the banner
    chosen by the `message` query key, and the password step of sign-in with
    CAPTCHA, account lookup, lockout pre-check, the library's password
    sign-in, and the audit trail of every outcome. */
module Login {
  import opened Base
  import opened Entities
  import opened Identity
  import opened Audit
  import opened Forms

  /** The query keys that other pages put into `/Login?message=...`. */
  const Registered: string := "registered"
  const SessionExpired: string := "session_expired"
  const AnotherLogin: string := "another_login"
  const LoggedOut: string := "logged_out"
  const PasswordChanged: string := "password_changed"
  const PasswordReset: string := "password_reset"

  /** The banner text for each key the page knows. */
  const Banners: map<string, string> := map[
    Registered := "Registration successful! Please log in.",
    SessionExpired := "Your session has expired. Please log in again.",
    AnotherLogin := "You have been logged out because another login was detected on a different device.",
    LoggedOut := "You have been logged out successfully.",
    PasswordChanged := "Password changed successfully. Please log in with your new password.",
    PasswordReset := "Password reset successfully. Please log in with your new password."]

  const BannerKeys: set<string> := Banners.Keys

  /** `OnGet(message)`: the banner text for a known key, none otherwise. */
  function Banner(message: Option<string>): (r: Option<string>)
    ensures r.Some? <==> message.Some? && message.value in BannerKeys
    ensures message == Some(SessionExpired) ==> r == Some("Your session has expired. Please log in again.")
  {
    if message.Some? && message.value in Banners then Some(Banners[message.value]) else None
  }

  datatype LoginForm = LoginForm(email: string, password: string)

  /** `[Required, EmailAddress]` on the email, `[Required]` on the password. */
  predicate FormValid(f: LoginForm) {
    Required(f.email) && EmailShaped(f.email) && Required(f.password)
  }

  const CaptchaFailed: string := "reCAPTCHA verification failed. Please try again."
  const InvalidCredentials: string := "Invalid email or password."
  const LockedNow: string :=
    "Account locked due to multiple failed login attempts. Please try again in 15 minutes."

  function PageError(m: Message): Response {
    Page([ModelError("", m)])
  }

  /** The audit detail for an attempt on a locked account. */
  function LockedDetail(lockoutEnd: int): string {
    "Login attempt while account is locked until " + UtcClockText(lockoutEnd) + "."
  }

  /** The user the password step applies to: a known email, not locked. */
  predicate Eligible(s: State, req: Request, f: LoginForm) {
    var found := FindByEmail(s.store.users, f.email);
    found.Some? && !IsLockedOut(found.value, req.now)
  }

  /** The password attempt on an account that was found and is not locked:
      the library's sign-in and what the page does with each result. */
  function Attempt(s: State, req: Request, u: User, password: string, verify: PasswordVerifier, sid: string): (r: Reply)
    requires u in s.store.users && !IsLockedOut(u, req.now)
    ensures SameIds(s.store.users, r.next.store.users)
    ensures r.next.store.sessions == s.store.sessions && r.next.store.history == s.store.history
    ensures Extends(s.store.audit, r.next.store.audit) && |r.next.store.audit| <= |s.store.audit| + 1
    ensures r.response == Redirect("/Index") <==> verify(u.passwordHash, password) && !TwoFactorActive(u)
    ensures r.response == Redirect("/Index") ==>
      && r.next.client == s.client.(principal := Some(u.id), transport := s.client.transport[SessionKey := sid])
      && r.next.store.users == UpdateUser(s.store.users, u.(sessionId := Some(sid), accessFailedCount := 0))
      && r.next.store.audit == LogFor(s.store.audit, req, u.id, ActLogin, "User logged in successfully.")
    ensures r.response == Redirect("/Verify2fa") <==> verify(u.passwordHash, password) && TwoFactorActive(u)
    ensures r.response == Redirect("/Verify2fa") ==> r.next == s.(client := s.client.(twoFactorUser := Some(u.id)))
    ensures !verify(u.passwordHash, password) ==>
      var v := AccessFailed(u, req.now);
      && r.next.client == s.client
      && r.next.store.users == UpdateUser(s.store.users, v)
      && (if IsLockedOut(v, req.now) then
            r.response == PageError(Text(LockedNow))
            && r.next.store.audit == LogFor(s.store.audit, req, u.id, ActAccountLocked,
                                            "Account locked due to multiple failed login attempts.")
          else
            r.response == PageError(Text(InvalidCredentials))
            && r.next.store.audit == LogFor(s.store.audit, req, u.id, ActLoginFailed, "Invalid password attempt."))
    ensures r.response.Page? ==> r.next.client == s.client
  {
    UpdateUserSameIds(s.store.users, u.(sessionId := Some(sid), accessFailedCount := 0));
    UpdateUserSameIds(s.store.users, AccessFailed(u, req.now));
    var attempt := PasswordSignIn(u, password, req.now, verify);
    match attempt.result
    case SignedIn =>
      var users := UpdateUser(s.store.users, attempt.user.(sessionId := Some(sid)));
      var log := LogFor(s.store.audit, req, u.id, ActLogin, "User logged in successfully.");
      var client := s.client.(principal := Some(u.id), transport := s.client.transport[SessionKey := sid]);
      Reply(State(s.store.(users := users, audit := log), client), Redirect("/Index"))
    case RequiresTwoFactor =>
      Reply(s.(client := s.client.(twoFactorUser := Some(u.id))), Redirect("/Verify2fa"))
    case LockedOut =>
      var log := LogFor(s.store.audit, req, u.id, ActAccountLocked,
                        "Account locked due to multiple failed login attempts.");
      Reply(s.(store := s.store.(users := UpdateUser(s.store.users, attempt.user), audit := log)),
            PageError(Text(LockedNow)))
    case Failed =>
      var log := LogFor(s.store.audit, req, u.id, ActLoginFailed, "Invalid password attempt.");
      Reply(s.(store := s.store.(users := UpdateUser(s.store.users, attempt.user), audit := log)),
            PageError(Text(InvalidCredentials)))
  }

  /** `OnPostAsync`. `captchaOk` is the CAPTCHA service's verdict on the
      submitted token, `verify` the password-hash check and `sid` the fresh
      GUID text for the transport session. */
  function Post(s: State, req: Request, f: LoginForm, captchaOk: bool,
                verify: PasswordVerifier, sid: string): (r: Reply)
    ensures SameIds(s.store.users, r.next.store.users)
    // No session row is ever written by the password step.
    ensures r.next.store.sessions == s.store.sessions
    ensures r.next.store.history == s.store.history
    ensures Extends(s.store.audit, r.next.store.audit) && |r.next.store.audit| <= |s.store.audit| + 1
    // Rejections before the account is known change nothing.
    ensures !FormValid(f) ==> r == Reply(s, Page([]))
    ensures FormValid(f) && !captchaOk ==> r == Reply(s, PageError(Text(CaptchaFailed)))
    ensures FormValid(f) && captchaOk && FindByEmail(s.store.users, f.email).None? ==>
      r == Reply(s, PageError(Text(InvalidCredentials)))
    // A locked account is refused before its password is looked at.
    ensures FormValid(f) && captchaOk && FindByEmail(s.store.users, f.email).Some?
            && IsLockedOut(FindByEmail(s.store.users, f.email).value, req.now) ==>
      var u := FindByEmail(s.store.users, f.email).value;
      && r.next == s.(store := s.store.(audit := r.next.store.audit))
      && r.response == PageError(LockedUntilLocal(u.lockoutEnd.value))
      && r.next.store.audit == LogFor(s.store.audit, req, u.id, ActLoginLockedOut, LockedDetail(u.lockoutEnd.value))
    // Signed in: the browser carries the user and the new transport session
    // id, and the user row records that id.
    ensures r.response == Redirect("/Index") <==>
      FormValid(f) && captchaOk && Eligible(s, req, f)
      && verify(FindByEmail(s.store.users, f.email).value.passwordHash, f.password)
      && !TwoFactorActive(FindByEmail(s.store.users, f.email).value)
    ensures r.response == Redirect("/Index") ==>
      var u := FindByEmail(s.store.users, f.email).value;
      && r.next.client == s.client.(principal := Some(u.id), transport := s.client.transport[SessionKey := sid])
      && r.next.store.users == UpdateUser(s.store.users, u.(sessionId := Some(sid), accessFailedCount := 0))
      && r.next.store.audit == LogFor(s.store.audit, req, u.id, ActLogin, "User logged in successfully.")
    // Second factor pending: only the two-factor cookie is set.
    ensures r.response == Redirect("/Verify2fa") <==>
      FormValid(f) && captchaOk && Eligible(s, req, f)
      && verify(FindByEmail(s.store.users, f.email).value.passwordHash, f.password)
      && TwoFactorActive(FindByEmail(s.store.users, f.email).value)
    ensures r.response == Redirect("/Verify2fa") ==>
      r.next == s.(client := s.client.(twoFactorUser := Some(FindByEmail(s.store.users, f.email).value.id)))
    // A wrong password counts against the account and is logged.
    ensures FormValid(f) && captchaOk && Eligible(s, req, f)
            && !verify(FindByEmail(s.store.users, f.email).value.passwordHash, f.password) ==>
      var u := FindByEmail(s.store.users, f.email).value;
      var v := AccessFailed(u, req.now);
      && r.next.client == s.client
      && r.next.store.users == UpdateUser(s.store.users, v)
      && (if IsLockedOut(v, req.now) then
            r.response == PageError(Text(LockedNow))
            && r.next.store.audit == LogFor(s.store.audit, req, u.id, ActAccountLocked,
                                            "Account locked due to multiple failed login attempts.")
          else
            r.response == PageError(Text(InvalidCredentials))
            && r.next.store.audit == LogFor(s.store.audit, req, u.id, ActLoginFailed, "Invalid password attempt."))
    // Every redirect leaves the page; every other outcome keeps the browser as it was.
    ensures r.response.Page? ==> r.next.client == s.client
  {
    if !FormValid(f) then Reply(s, Page([]))
    else if !captchaOk then Reply(s, PageError(Text(CaptchaFailed)))
    else match FindByEmail(s.store.users, f.email)
      case None => Reply(s, PageError(Text(InvalidCredentials)))
      case Some(u) =>
        if IsLockedOut(u, req.now) then
          var end := u.lockoutEnd.value;
          var log := LogFor(s.store.audit, req, u.id, ActLoginLockedOut, LockedDetail(end));
          Reply(s.(store := s.store.(audit := log)), PageError(LockedUntilLocal(end)))
        else Attempt(s, req, u, f.password, verify, sid)
  }

  /** An unknown email and a wrong password (short of the lock) show the
      same page: the response does not reveal which accounts exist. */
  lemma UnknownEmailLooksLikeWrongPassword(s: State, req: Request, unknown: LoginForm, known: LoginForm,
                                           verify: PasswordVerifier, sid: string)
    requires FormValid(unknown) && FormValid(known)
    requires FindByEmail(s.store.users, unknown.email).None?
    requires Eligible(s, req, known)
    requires !verify(FindByEmail(s.store.users, known.email).value.passwordHash, known.password)
    requires FindByEmail(s.store.users, known.email).value.accessFailedCount + 1 < MaxFailedAccessAttempts
    ensures Post(s, req, unknown, true, verify, sid).response == Post(s, req, known, true, verify, sid).response
  {
  }
}

=== FILE: logout.dfy ===
/** Sign-out (ApplicationSecurity/Pages/Logout.cshtml.cs) and the status
    code page (ApplicationSecurity/Pages/StatusCode.cshtml.cs). */
module Logout {
  import opened Base
  import opened Entities
  import opened Audit

  const LoggedOutLocation: string := "/Login?message=logged_out"

  /** `OnGet`: a plain visit never signs anybody out. */
  function Get(s: State): (r: Reply)
    ensures r == Reply(s, Redirect("/Index"))
  {
    Reply(s, Redirect("/Index"))
  }

  /** `OnPostAsync`: forget the user's session id, log the event, drop both
      sign-in cookies and the transport session. The session rows stay as
      they are. */
  function Post(s: State, req: Request): (r: Reply)
    ensures SameIds(s.store.users, r.next.store.users)
    ensures r.response == Redirect(LoggedOutLocation)
    ensures r.next.client == ClearTransport(SignOut(s.client))
    ensures r.next.store.sessions == s.store.sessions && r.next.store.history == s.store.history
    ensures CurrentUser(s).None? ==> r.next.store == s.store
    ensures CurrentUser(s).Some? ==>
      var u := CurrentUser(s).value;
      && r.next.store.users == UpdateUser(s.store.users, u.(sessionId := None))
      && r.next.store.audit == LogFor(s.store.audit, req, u.id, ActLogout, "User logged out.")
  {
    var store :=
      match CurrentUser(s)
      case None => s.store
      case Some(u) =>
        s.store.(users := UpdateUser(s.store.users, u.(sessionId := None)),
                 audit := LogFor(s.store.audit, req, u.id, ActLogout, "User logged out."));
    Reply(State(store, ClearTransport(SignOut(s.client))), Redirect(LoggedOutLocation))
  }

  /** A visit keeps the browser signed in; only the form post signs it out. */
  lemma OnlyPostSignsOut(s: State, req: Request)
    ensures CurrentUser(Get(s).next) == CurrentUser(s)
    ensures TransportSessionId(Get(s).next.client) == TransportSessionId(s.client)
    ensures CurrentUser(Post(s, req).next).None?
    ensures TransportSessionId(Post(s, req).next.client).None?
  {
  }

  /** Signing out twice is signing out once, apart from the audit record of
      the first. */
  lemma PostIdempotentForBrowser(s: State, req: Request)
    ensures var once := Post(s, req).next;
      Post(once, req).next.client == once.client && Post(once, req).next.store == once.store
  {
  }
}

module StatusCode {
  /** What the error page shows for an HTTP status code. */
  datatype ErrorPage = ErrorPage(code: int, title: string, description: string)

  /** The codes the page has its own wording for. */
  const Known: set<int> := {400, 401, 403, 404, 405, 408, 500, 502, 503}

  const GenericTitle: string := "Error"
  const GenericDescription: string := "An unexpected error occurred."

  /** The title and description for a listed code. */
  function Listed(code: int): (r: (string, string))
    requires code in Known
    ensures r.0 != "Error"
  {
    if code == 400 then ("Bad Request", "The server could not understand the request.")
    else if code == 401 then ("Unauthorized", "You need to log in to access this resource.")
    else if code == 403 then ("Access Denied", "You do not have permission to access this resource.")
    else if code == 404 then ("Page Not Found", "The page you are looking for does not exist or has been moved.")
    else if code == 405 then ("Method Not Allowed", "The request method is not supported for this resource.")
    else if code == 408 then ("Request Timeout", "The server timed out waiting for the request.")
    else if code == 500 then ("Internal Server Error", "Something went wrong on our end. Please try again later.")
    else if code == 502 then ("Bad Gateway", "The server received an invalid response from an upstream server.")
    else ("Service Unavailable", "The server is temporarily unavailable. Please try again later.")
  }

  /** `OnGet(code)`. */
  function Describe(code: int): (r: ErrorPage)
    ensures r.code == code
    ensures r.title == GenericTitle <==> code !in Known
    ensures code !in Known ==> r.description == GenericDescription
    ensures code in Known ==> (r.title, r.description) == Listed(code)
  {
    if code in Known then ErrorPage(code, Listed(code).0, Listed(code).1)
    else ErrorPage(code, GenericTitle, GenericDescription)
  }

  /** The title alone tells which listed code the page is for: no two of
      the nine share a title, and none is shared with an unlisted code. */
  lemma TitleIdentifiesListedCode(a: int, b: int)
    requires a in Known && a != b
    ensures Describe(a).title != Describe(b).title
  {
    if b in Known {
      ListedTitlesDistinct(a, b);
    }
  }

  /** No two listed codes share a title. */
  lemma ListedTitlesDistinct(a: int, b: int)
    requires a in Known && b in Known && a != b
    ensures Listed(a).0 != Listed(b).0
  {
    if a == 400 {
      OnlyTitled400(b);
    } else if a == 401 {
      OnlyTitled401(b);
    } else if a == 403 {
      OnlyTitled403(b);
    } else if a == 404 {
      OnlyTitled404(b);
    } else if a == 405 {
      OnlyTitled405(b);
    } else if a == 408 {
      OnlyTitled408(b);
    } else if a == 500 {
      OnlyTitled500(b);
    } else if a == 502 {
      OnlyTitled502(b);
    } else {
      OnlyTitled503(b);
    }
  }

  // Each listed title belongs to its own code only.
  lemma OnlyTitled400(b: int)
    requires b in Known && b != 400
    ensures Listed(b).0 != "Bad Request"
  {
  }

  lemma OnlyTitled401(b: int)
    requires b in Known && b != 401
    ensures Listed(b).0 != "Unauthorized"
  {
  }

  lemma OnlyTitled403(b: int)
    requires b in Known && b != 403
    ensures Listed(b).0 != "Access Denied"
  {
  }

  lemma OnlyTitled404(b: int)
    requires b in Known && b != 404
    ensures Listed(b).0 != "Page Not Found"
  {
  }

  lemma OnlyTitled405(b: int)
    requires b in Known && b != 405
    ensures Listed(b).0 != "Method Not Allowed"
  {
  }

  lemma OnlyTitled408(b: int)
    requires b in Known && b != 408
    ensures Listed(b).0 != "Request Timeout"
  {
  }

  lemma OnlyTitled500(b: int)
    requires b in Known && b != 500
    ensures Listed(b).0 != "Internal Server Error"
  {
  }

  lemma OnlyTitled502(b: int)
    requires b in Known && b != 502
    ensures Listed(b).0 != "Bad Gateway"
  {
  }

  lemma OnlyTitled503(b: int)
    requires b in Known && b != 503
    ensures Listed(b).0 != "Service Unavailable"
  {
  }
}

=== FILE: policy.dfy ===
/** The password policy the pages enforce on top of Identity: the form-level
    complexity pattern, the minimum and maximum password age, and the
    password-history table with its reuse check and its prune. */
module Policy {
  import opened Base
  import opened Entities
  import opened Identity

  const MinimumPasswordAge: int := 5 * TicksPerMinute
  const MaximumPasswordAge: int := 90 * TicksPerDay
  /** How many of the newest history rows the reuse check reads and the
      prune keeps. */
  const HistoryDepth: nat := 2

  // ---------------------------------------------------------------------
  // Complexity

  /** `[\W_]`, with `\w` restricted to ASCII. */
  predicate IsSpecial(c: char) { !IsWordChar(c) || c == '_' }

  predicate HasSpecial(p: string) { exists i :: 0 <= i < |p| && IsSpecial(p[i]) }

  /** The password fields' `[RegularExpression]`
      `^(?=.*[a-z])(?=.*[A-Z])(?=.*\d)(?=.*[\W_]).{12,}$` (with `[MinLength(12)]`).
      The attribute accepts only a match spanning the whole value and `.`
      does not match a line feed, so no line feed may occur anywhere; each
      lookahead then ranges over the whole value. */
  predicate PasswordFieldValid(p: string) {
    && |p| >= RequiredLength
    && (forall i :: 0 <= i < |p| ==> p[i] != '\n')
    && HasLower(p) && HasUpper(p) && HasDigit(p) && HasSpecial(p)
  }

  /** A password the form accepts also passes Identity's validator, so the
      library never rejects it for complexity. */
  lemma FieldValidPassesIdentityPolicy(p: string)
    requires PasswordFieldValid(p)
    ensures PasswordErrors(p) == []
  {
    var i :| 0 <= i < |p| && IsLower(p[i]);
    assert !IsWhiteSpace(p[i]);
    var j :| 0 <= j < |p| && IsSpecial(p[j]);
    assert !(IsLetter(p[j]) || IsDigit(p[j]));
  }

  /** The two passwords of the registration scenario. */
  lemma ScenarioPasswords()
    ensures !PasswordFieldValid("Weak1!")
    ensures PasswordFieldValid("StrongPass1!")
  {
    var p := "StrongPass1!";
    assert IsLower(p[1]) && IsUpper(p[0]) && IsDigit(p[10]) && IsSpecial(p[11]);
  }

  // ---------------------------------------------------------------------
  // Age

  /** ChangePassword's minimum-age rule: `TotalMinutes < 5` since a recorded
      change. A missing date never blocks. */
  predicate TooSoonToChange(last: Option<int>, now: int) {
    last.Some? && now - last.value < MinimumPasswordAge
  }

  /** The request gate's maximum-age rule: `TotalDays > 90` since a recorded
      change. A missing date never expires. */
  predicate PasswordExpired(last: Option<int>, now: int) {
    last.Some? && now - last.value > MaximumPasswordAge
  }

  /** `TotalDays` is fractional: one tick past 90 days already expires. */
  lemma ExpiryBoundary(last: int)
    ensures PasswordExpired(Some(last), last + 90 * TicksPerDay + 1)
    ensures PasswordExpired(Some(last), last + 91 * TicksPerDay)
    ensures !PasswordExpired(Some(last), last + 90 * TicksPerDay)
    ensures !PasswordExpired(Some(last), last + 89 * TicksPerDay)
    ensures TooSoonToChange(Some(last), last + 5 * TicksPerMinute - 1)
    ensures !TooSoonToChange(Some(last), last + 5 * TicksPerMinute)
  {
  }

  /** Once expired, a password stays expired; once old enough to change, it
      stays so; and no password is both expired and too young. */
  lemma AgeRulesMonotone(last: Option<int>, now: int, later: int)
    requires now <= later
    ensures PasswordExpired(last, now) ==> PasswordExpired(last, later)
    ensures !TooSoonToChange(last, now) ==> !TooSoonToChange(last, later)
    ensures !(PasswordExpired(last, now) && TooSoonToChange(last, now))
  {
  }

  // ---------------------------------------------------------------------
  // History table

  /** `PasswordHistories.Where(p => p.UserId == uid)`, in storage order. */
  function RowsOf(h: seq<HistoryRow>, uid: UserId): (r: seq<HistoryRow>)
    ensures forall x :: x in r <==> x in h && x.userId == uid
    ensures |r| <= |h|
  {
    if h == [] then []
    else (if h[0].userId == uid then [h[0]] else []) + RowsOf(h[1..], uid)
  }

  /** The rows of every other user, in storage order. */
  function OthersOf(h: seq<HistoryRow>, uid: UserId): (r: seq<HistoryRow>)
    ensures forall x :: x in r <==> x in h && x.userId != uid
  {
    if h == [] then []
    else (if h[0].userId != uid then [h[0]] else []) + OthersOf(h[1..], uid)
  }

  predicate NewestFirst(rows: seq<HistoryRow>) {
    forall i, j :: 0 <= i < j < |rows| ==> rows[i].createdDate >= rows[j].createdDate
  }

  /** Places `x` before the first row strictly older than it. */
  function InsertByDate(x: HistoryRow, sorted: seq<HistoryRow>): (r: seq<HistoryRow>)
    ensures multiset(r) == multiset(sorted) + multiset{x}
    ensures |r| == |sorted| + 1
    ensures NewestFirst(sorted) ==> NewestFirst(r)
  {
    if sorted == [] || sorted[0].createdDate < x.createdDate then [x] + sorted
    else
      assert sorted == [sorted[0]] + sorted[1..];
      var rest := InsertByDate(x, sorted[1..]);
      InsertBelowHead(x, sorted, rest);
      [sorted[0]] + rest
  }

  lemma InsertBelowHead(x: HistoryRow, sorted: seq<HistoryRow>, rest: seq<HistoryRow>)
    requires sorted != [] && sorted[0].createdDate >= x.createdDate
    requires multiset(rest) == multiset(sorted[1..]) + multiset{x}
    requires NewestFirst(sorted) ==> NewestFirst(rest)
    ensures NewestFirst(sorted) ==> NewestFirst([sorted[0]] + rest)
  {
    if NewestFirst(sorted) {
      var r := [sorted[0]] + rest;
      forall j | 1 <= j < |r| ensures r[0].createdDate >= r[j].createdDate {
        var y := rest[j - 1];
        assert y in multiset(rest);
        if y != x {
          assert y in multiset(sorted[1..]);
          var k :| 0 <= k < |sorted[1..]| && sorted[1..][k] == y;
          assert sorted[k + 1] == y;
        }
      }
    }
  }

  /** `OrderByDescending(p => p.CreatedDate)`. Rows with equal dates keep
      the later-stored row first. */
  function SortNewestFirst(rows: seq<HistoryRow>): (r: seq<HistoryRow>)
    ensures multiset(r) == multiset(rows)
    ensures |r| == |rows|
    ensures NewestFirst(r)
  {
    if rows == [] then []
    else
      assert rows == [rows[0]] + rows[1..];
      InsertByDate(rows[0], SortNewestFirst(rows[1..]))
  }

  /** `.OrderByDescending(CreatedDate).Take(2)`: the rows the reuse check
      reads. */
  function Recent(h: seq<HistoryRow>, uid: UserId): seq<HistoryRow> {
    var sorted := SortNewestFirst(RowsOf(h, uid));
    if |sorted| <= HistoryDepth then sorted else sorted[..HistoryDepth]
  }

  /** `.OrderByDescending(CreatedDate).Skip(2)`: the rows the prune removes. */
  function Stale(h: seq<HistoryRow>, uid: UserId): seq<HistoryRow> {
    var sorted := SortNewestFirst(RowsOf(h, uid));
    if |sorted| <= HistoryDepth then [] else sorted[HistoryDepth..]
  }

  /** The `foreach` over the fetched rows, returning at the first hash the
      candidate verifies against. */
  function AnyVerifies(rows: seq<HistoryRow>, candidate: string, verify: PasswordVerifier): (r: bool)
    ensures r <==> exists i :: 0 <= i < |rows| && verify(rows[i].passwordHash, candidate)
  {
    if rows == [] then false
    else if verify(rows[0].passwordHash, candidate) then true
    else
      var rest := AnyVerifies(rows[1..], candidate, verify);
      assert forall i :: 1 <= i < |rows| ==> rows[i] == rows[1..][i - 1];
      rest
  }

  /** The reuse check of ChangePassword and ResetPassword: the candidate
      verifies against one of the user's two newest stored hashes. */
  predicate ReusesRecentPassword(h: seq<HistoryRow>, uid: UserId, candidate: string, verify: PasswordVerifier) {
    AnyVerifies(Recent(h, uid), candidate, verify)
  }

  lemma ReuseCheckMeaning(h: seq<HistoryRow>, uid: UserId, candidate: string, verify: PasswordVerifier)
    ensures ReusesRecentPassword(h, uid, candidate, verify) <==>
      exists x :: x in Recent(h, uid) && verify(x.passwordHash, candidate)
  {
    if ReusesRecentPassword(h, uid, candidate, verify) {
      var i :| 0 <= i < |Recent(h, uid)| && verify(Recent(h, uid)[i].passwordHash, candidate);
      assert Recent(h, uid)[i] in Recent(h, uid);
    }
  }

  /** The rows the reuse check reads are at most two of the user's own. */
  lemma RecentRowsAreOwn(h: seq<HistoryRow>, uid: UserId)
    ensures forall x :: x in Recent(h, uid) ==> x in h && x.userId == uid
    ensures |Recent(h, uid)| <= HistoryDepth
  {
    var sorted := SortNewestFirst(RowsOf(h, uid));
    forall x | x in Recent(h, uid) ensures x in h && x.userId == uid {
      assert x in multiset(sorted);
    }
  }

  /** The history update of a successful change or reset, as the pages do
      it: the new row is added to the context, the rows to delete are
      queried from the database before the save (so the new row is not among
      them), and the two are saved together. */
  function RecordChange(h: seq<HistoryRow>, uid: UserId, hash: string, now: int): (r: seq<HistoryRow>)
    ensures RowsOf(r, uid) == Recent(h, uid) + [HistoryRow(uid, hash, now)]
    ensures multiset(RowsOf(r, uid))
      == multiset(RowsOf(h, uid)) - multiset(Stale(h, uid)) + multiset{HistoryRow(uid, hash, now)}
    ensures forall v :: v != uid ==> RowsOf(r, v) == RowsOf(h, v)
    ensures |RowsOf(r, uid)| <= HistoryDepth + 1
  {
    var added := HistoryRow(uid, hash, now);
    RecordChangeShape(h, uid, added);
    OthersOf(h, uid) + Recent(h, uid) + [added]
  }

  lemma RecordChangeShape(h: seq<HistoryRow>, uid: UserId, added: HistoryRow)
    requires added.userId == uid
    ensures var r := OthersOf(h, uid) + Recent(h, uid) + [added];
      && RowsOf(r, uid) == Recent(h, uid) + [added]
      && multiset(Recent(h, uid)) == multiset(RowsOf(h, uid)) - multiset(Stale(h, uid))
      && forall v :: v != uid ==> RowsOf(r, v) == RowsOf(h, v)
  {
    RecordChangeOwnRows(h, uid, added);
    RecentAndStaleSplit(h, uid);
    forall v | v != uid ensures RowsOf(OthersOf(h, uid) + Recent(h, uid) + [added], v) == RowsOf(h, v) {
      RecordChangeOtherRows(h, uid, added, v);
    }
  }

  lemma RecordChangeOwnRows(h: seq<HistoryRow>, uid: UserId, added: HistoryRow)
    requires added.userId == uid
    ensures RowsOf(OthersOf(h, uid) + Recent(h, uid) + [added], uid) == Recent(h, uid) + [added]
  {
    RecentRowsAreOwn(h, uid);
    RowsOfOthers(h, uid, uid);
    OwnRowsOfConcat(OthersOf(h, uid), Recent(h, uid), added, uid);
  }

  lemma OwnRowsOfConcat(others: seq<HistoryRow>, own: seq<HistoryRow>, added: HistoryRow, uid: UserId)
    requires RowsOf(others, uid) == []
    requires forall x :: x in own ==> x.userId == uid
    requires added.userId == uid
    ensures RowsOf(others + own + [added], uid) == own + [added]
  {
    RowsOfAppend(others + own, [added], uid);
    RowsOfAppend(others, own, uid);
    RowsOfOwn(own, uid);
    RowsOfOwn([added], uid);
    assert [] + own == own;
  }

  lemma RecordChangeOtherRows(h: seq<HistoryRow>, uid: UserId, added: HistoryRow, v: UserId)
    requires added.userId == uid && v != uid
    ensures RowsOf(OthersOf(h, uid) + Recent(h, uid) + [added], v) == RowsOf(h, v)
  {
    RecentRowsAreOwn(h, uid);
    RowsOfOthers(h, uid, v);
    ForeignRowsOfConcat(OthersOf(h, uid), Recent(h, uid), added, v);
  }

  lemma ForeignRowsOfConcat(others: seq<HistoryRow>, own: seq<HistoryRow>, added: HistoryRow, v: UserId)
    requires forall x :: x in own ==> x.userId != v
    requires added.userId != v
    ensures RowsOf(others + own + [added], v) == RowsOf(others, v)
  {
    RowsOfAppend(others + own, [added], v);
    RowsOfAppend(others, own, v);
    RowsOfForeign(own, v);
    RowsOfForeign([added], v);
    assert RowsOf(others, v) + [] + [] == RowsOf(others, v);
  }

  lemma RecentAndStaleSplit(h: seq<HistoryRow>, uid: UserId)
    ensures multiset(Recent(h, uid)) == multiset(RowsOf(h, uid)) - multiset(Stale(h, uid))
  {
    var rows := RowsOf(h, uid);
    var sorted := SortNewestFirst(rows);
    assert multiset(sorted) == multiset(rows);
    if |sorted| > HistoryDepth {
      var front, back := sorted[..HistoryDepth], sorted[HistoryDepth..];
      assert sorted == front + back;
      assert Recent(h, uid) == front && Stale(h, uid) == back;
      assert multiset(rows) == multiset(front) + multiset(back);
    } else {
      assert Recent(h, uid) == sorted && Stale(h, uid) == [];
    }
  }

  lemma {:induction false} RowsOfAppend(a: seq<HistoryRow>, b: seq<HistoryRow>, uid: UserId)
    ensures RowsOf(a + b, uid) == RowsOf(a, uid) + RowsOf(b, uid)
  {
    if a == [] {
      assert a + b == b;
    } else {
      assert (a + b)[1..] == a[1..] + b;
      RowsOfAppend(a[1..], b, uid);
    }
  }

  lemma {:induction false} RowsOfOthers(h: seq<HistoryRow>, uid: UserId, v: UserId)
    ensures RowsOf(OthersOf(h, uid), v) == if v == uid then [] else RowsOf(h, v)
  {
    if h != [] {
      RowsOfOthers(h[1..], uid, v);
      var head := if h[0].userId != uid then [h[0]] else [];
      RowsOfAppend(head, OthersOf(h[1..], uid), v);
    }
  }

  lemma {:induction false} RowsOfOwn(rows: seq<HistoryRow>, uid: UserId)
    requires forall x :: x in rows ==> x.userId == uid
    ensures RowsOf(rows, uid) == rows
  {
    if rows != [] {
      RowsOfOwn(rows[1..], uid);
    }
  }

  lemma {:induction false} RowsOfForeign(rows: seq<HistoryRow>, v: UserId)
    requires forall x :: x in rows ==> x.userId != v
    ensures RowsOf(rows, v) == []
  {
    if rows != [] {
      RowsOfForeign(rows[1..], v);
    }
  }

  /** A row appended with a date no earlier than every other row sorts
      first. */
  lemma {:induction false} NewestSortsFirst(rows: seq<HistoryRow>, x: HistoryRow)
    requires forall y :: y in rows ==> y.createdDate <= x.createdDate
    ensures SortNewestFirst(rows + [x])[0] == x
  {
    if rows == [] {
      assert [] + [x] == [x];
    } else {
      var tail := rows[1..] + [x];
      assert rows + [x] == [rows[0]] + tail;
      assert (rows + [x])[1..] == tail;
      NewestSortsFirst(rows[1..], x);
    }
  }

  /** With a clock that does not run backwards, the hash just recorded is
      among the two the next reuse check reads, so the password just set
      cannot be set again straight away. */
  lemma JustRecordedPasswordIsReused(h: seq<HistoryRow>, uid: UserId, hash: string, now: int,
                                     candidate: string, verify: PasswordVerifier)
    requires forall x :: x in h && x.userId == uid ==> x.createdDate <= now
    requires verify(hash, candidate)
    ensures ReusesRecentPassword(RecordChange(h, uid, hash, now), uid, candidate, verify)
  {
    var r := RecordChange(h, uid, hash, now);
    var added := HistoryRow(uid, hash, now);
    var recent := Recent(h, uid);
    RecentRowsAreOwn(h, uid);
    assert RowsOf(r, uid) == recent + [added];
    NewestSortsFirst(recent, added);
    var sorted := SortNewestFirst(recent + [added]);
    assert sorted[0] == added;
    assert Recent(r, uid)[0] == added;
    assert verify(Recent(r, uid)[0].passwordHash, candidate);
  }

  /** The prune does not see the row added in the same request: with two
      rows on record, a change leaves three, although the code's intent is
      to keep two. */
  lemma PruneKeepsThreeRows(uid: UserId, h1: string, h2: string, h3: string)
    ensures var h := [HistoryRow(uid, h1, 1), HistoryRow(uid, h2, 2)];
            |RowsOf(RecordChange(h, uid, h3, 3), uid)| == 3
  {
    var h := [HistoryRow(uid, h1, 1), HistoryRow(uid, h2, 2)];
    assert RowsOf(h, uid) == h;
  }
}

=== FILE: recovery.dfy ===
/** Password recovery: the reset request
    (ApplicationSecurity/Pages/ForgotPassword.cshtml.cs) and the reset itself
    (ApplicationSecurity/Pages/ResetPassword.cshtml.cs). Neither page tells
    a visitor whether an account exists. */
module Recovery {
  import opened Base
  import opened Entities
  import opened Identity
  import opened Audit
  import opened Forms
  import opened Policy

  // ---------------------------------------------------------------------
  // Forgot password

  /** The reset mail: its recipient and the user whose token it carries. */
  datatype ResetMail = ResetMail(to: string, userId: UserId)

  /** The page's outcome: the state after, the `EmailSent` flag the page
      shows, and the mail handed to the mail service, if any. Whether the
      mail service then succeeds is not observable: its failure is caught. */
  datatype ForgotReply = ForgotReply(next: State, emailSent: bool, mail: Option<ResetMail>)

  predicate ForgotFormValid(email: string) {
    Required(email) && EmailShaped(email)
  }

  /** `ForgotPasswordModel.OnPostAsync`. */
  function Forgot(s: State, req: Request, email: string): (r: ForgotReply)
    ensures r.next.client == s.client
    ensures r.next.store == s.store.(audit := r.next.store.audit)
    ensures Extends(s.store.audit, r.next.store.audit)
    ensures r.emailSent <==> ForgotFormValid(email)
    ensures r.mail.Some? <==> ForgotFormValid(email) && FindByEmail(s.store.users, email).Some?
    ensures r.mail.Some? ==>
      var u := FindByEmail(s.store.users, email).value;
      && r.mail.value == ResetMail(u.email, u.id)
      && r.next.store.audit == LogFor(s.store.audit, req, u.id, ActPasswordResetRequested, "Password reset email requested.")
    ensures r.mail.None? ==> r.next == s
  {
    if !ForgotFormValid(email) then ForgotReply(s, false, None)
    else match FindByEmail(s.store.users, email)
      case None => ForgotReply(s, true, None)
      case Some(u) =>
        var log := LogFor(s.store.audit, req, u.id, ActPasswordResetRequested, "Password reset email requested.");
        ForgotReply(s.(store := s.store.(audit := log)), true, Some(ResetMail(u.email, u.id)))
  }

  /** A visitor sees the same page for a registered and an unregistered
      address. */
  lemma ForgotDoesNotEnumerate(s: State, req: Request, known: string, unknown: string)
    requires ForgotFormValid(known) && ForgotFormValid(unknown)
    requires FindByEmail(s.store.users, known).Some? && FindByEmail(s.store.users, unknown).None?
    ensures Forgot(s, req, known).emailSent == Forgot(s, req, unknown).emailSent
    ensures Forgot(s, req, known).next.client == Forgot(s, req, unknown).next.client
    ensures Forgot(s, req, known).mail.Some? && Forgot(s, req, unknown).mail.None?
  {
  }

  // ---------------------------------------------------------------------
  // Reset password

  /** `ResetPasswordModel.OnGet(token, email)`: the form needs both. */
  function ResetGet(token: Option<string>, email: Option<string>): (r: Response)
    ensures r == Page([]) <==> !IsNullOrEmpty(token) && !IsNullOrEmpty(email)
    ensures r != Page([]) ==> r == Redirect("/Login")
  {
    if IsNullOrEmpty(token) || IsNullOrEmpty(email) then Redirect("/Login") else Page([])
  }

  datatype ResetForm = ResetForm(token: string, email: string, newPassword: string, confirm: string)

  predicate ResetFormValid(f: ResetForm) {
    Required(f.token) && Required(f.email) && EmailShaped(f.email)
    && Required(f.newPassword) && PasswordFieldValid(f.newPassword)
    && Required(f.confirm) && f.confirm == f.newPassword
  }

  const ResetLocation: string := "/Login?message=password_reset"
  const Reused: string := "You cannot reuse your last 2 passwords. Please choose a different password."

  /** `ResetPasswordModel.OnPostAsync`. `tokenValid` is the library's
      verdict on the submitted token for the account, `newHash` the hash it
      computes for the new password. */
  function Reset(s: State, req: Request, f: ResetForm, tokenValid: bool,
                 verify: PasswordVerifier, newHash: string): (r: Reply)
    ensures r.next.client == s.client
    ensures r.next.store.sessions == s.store.sessions
    ensures Extends(s.store.audit, r.next.store.audit) && |r.next.store.audit| <= |s.store.audit| + 1
    ensures !ResetFormValid(f) ==> r == Reply(s, Page([]))
    // An unknown address looks like a successful reset and changes nothing.
    ensures ResetFormValid(f) && FindByEmail(s.store.users, f.email).None? ==> r == Reply(s, Redirect(ResetLocation))
    ensures ResetFormValid(f) && FindByEmail(s.store.users, f.email).Some?
            && ReusesRecentPassword(s.store.history, FindByEmail(s.store.users, f.email).value.id, f.newPassword, verify) ==>
      r == Reply(s, Page([ModelError("", Text(Reused))]))
    ensures ResetFormValid(f) && FindByEmail(s.store.users, f.email).Some? && !tokenValid
            && !ReusesRecentPassword(s.store.history, FindByEmail(s.store.users, f.email).value.id, f.newPassword, verify) ==>
      r == Reply(s, Page(ErrorsOf(["InvalidToken"])))
    // A reset with a valid token replaces the password and lifts any lockout.
    ensures ResetFormValid(f) && FindByEmail(s.store.users, f.email).Some? && tokenValid
            && !ReusesRecentPassword(s.store.history, FindByEmail(s.store.users, f.email).value.id, f.newPassword, verify) ==>
      var u := FindByEmail(s.store.users, f.email).value;
      var v := u.(passwordHash := newHash, lastPasswordChange := Some(req.now), lockoutEnd := None, accessFailedCount := 0);
      && r.response == Redirect(ResetLocation)
      && r.next.store.users == UpdateUser(s.store.users, v)
      && RowsOf(r.next.store.history, u.id) == Recent(s.store.history, u.id) + [HistoryRow(u.id, newHash, req.now)]
      && (forall w :: w != u.id ==> RowsOf(r.next.store.history, w) == RowsOf(s.store.history, w))
      && r.next.store.audit == LogFor(s.store.audit, req, u.id, ActPasswordReset, "Password reset successfully via email link.")
    ensures r.next.store.audit == s.store.audit ==> r.next == s
  {
    if !ResetFormValid(f) then Reply(s, Page([]))
    else match FindByEmail(s.store.users, f.email)
      case None => Reply(s, Redirect(ResetLocation))
      case Some(u) =>
        if ReusesRecentPassword(s.store.history, u.id, f.newPassword, verify) then
          Reply(s, Page([ModelError("", Text(Reused))]))
        else
          FieldValidPassesIdentityPolicy(f.newPassword);
          match ResetPassword(u, tokenValid, f.newPassword, newHash)
          case Rejected(codes) => Reply(s, Page(ErrorsOf(codes)))
          case Ok(v) =>
            var w := v.(lastPasswordChange := Some(req.now), lockoutEnd := None, accessFailedCount := 0);
            var history := RecordChange(s.store.history, u.id, newHash, req.now);
            var log := LogFor(s.store.audit, req, u.id, ActPasswordReset, "Password reset successfully via email link.");
            Reply(s.(store := s.store.(users := UpdateUser(s.store.users, w), history := history, audit := log)),
                  Redirect(ResetLocation))
  }
}

=== FILE: register.dfy ===
/** Account registration (ApplicationSecurity/Pages/Register.cshtml.cs): the
    input model's checks, the resume upload checks, the duplicate-email
    check, the library's user creation, and the first password-history row. */
module Register {
  import opened Base
  import opened Entities
  import opened Identity
  import opened Audit
  import opened Forms
  import opened Policy
  import opened Html

  // ---------------------------------------------------------------------
  // Field checks

  /** `[Required, StringLength(50), RegularExpression(@"^[a-zA-Z\s\-]+$")]`. */
  predicate NameValid(n: string) {
    Required(n) && |n| <= 50
    && forall i :: 0 <= i < |n| ==> IsLetter(n[i]) || IsWhiteSpace(n[i]) || n[i] == '-'
  }

  /** `^[STFGM]\d{7}[A-Z]$` matched against the whole value. */
  predicate NricValid(s: string) {
    |s| == 9 && s[0] in "STFGM" && IsUpper(s[8])
    && forall i :: 1 <= i < 8 ==> IsDigit(s[i])
  }

  lemma NricExamples()
    ensures NricValid("S1234567A")
    ensures !NricValid("A1234567B") && !NricValid("S123456A") && !NricValid("S1234567a")
  {
  }

  /** An uploaded file as the page sees it. */
  datatype Upload = Upload(fileName: string, contentType: string, length: int)

  datatype RegisterForm = RegisterForm(
    firstName: string, lastName: string, gender: string, nric: string,
    email: string, password: string, confirm: string, dateOfBirth: int,
    resume: Option<Upload>, whoAmI: string)

  predicate FormValid(f: RegisterForm) {
    && NameValid(f.firstName) && NameValid(f.lastName) && Required(f.gender)
    && Required(f.nric) && NricValid(f.nric)
    && Required(f.email) && EmailShaped(f.email)
    && Required(f.password) && PasswordFieldValid(f.password)
    && Required(f.confirm) && f.confirm == f.password
    && f.resume.Some? && Required(f.whoAmI)
  }

  // ---------------------------------------------------------------------
  // Resume checks

  /** `Path.GetExtension` with `/` as the only directory separator: from the
      last `.` of the last path segment, or empty when that dot ends the
      name or there is none. */
  function Extension(p: string): (r: string)
    ensures r == [] || (2 <= |r| <= |p| && r[0] == '.' && '.' !in r[1..] && '/' !in r && r == p[|p| - |r|..])
  {
    ExtensionScan(p, |p|)
  }

  function ExtensionScan(p: string, i: nat): (r: string)
    requires i <= |p|
    requires forall k :: i <= k < |p| ==> p[k] != '.' && p[k] != '/'
    ensures r == [] || (2 <= |r| <= |p| && r[0] == '.' && '.' !in r[1..] && '/' !in r && r == p[|p| - |r|..])
  {
    if i == 0 then []
    else if p[i - 1] == '.' then
      if i == |p| then []
      else
        var ext := p[i - 1..];
        assert forall k :: 1 <= k < |ext| ==> ext[k] == p[i - 1 + k];
        ext
    else if p[i - 1] == '/' then []
    else
      ExtensionScan(p, i - 1)
  }

  /** The extension of a name ending in `.ext` is `.ext`, whatever comes
      before it. */
  lemma ExtensionOfSuffix(stem: string, ext: string)
    requires |ext| > 0 && '.' !in ext && '/' !in ext
    ensures Extension(stem + "." + ext) == "." + ext
  {
    var p := stem + "." + ext;
    ScanSkipsTail(p, |p|, |stem| + 1);
    assert p[|stem|] == '.';
    assert p[|stem|..] == "." + ext;
  }

  lemma {:induction false} ScanSkipsTail(p: string, i: nat, j: nat)
    requires 0 < j <= i <= |p|
    requires forall k :: j <= k < |p| ==> p[k] != '.' && p[k] != '/'
    ensures ExtensionScan(p, i) == ExtensionScan(p, j)
    decreases i - j
  {
    if i > j {
      ScanSkipsTail(p, i - 1, j);
    }
  }

  const AllowedExtensions: set<string> := {".docx", ".pdf"}
  const AllowedMimeTypes: set<string> :=
    {"application/pdf", "application/vnd.openxmlformats-officedocument.wordprocessingml.document"}
  const MaxResumeBytes: int := 10 * 1024 * 1024

  const BadExtension: string := "Only .docx and .pdf files are allowed."
  const BadMime: string := "Invalid file type. Only .docx and .pdf files are allowed."
  const TooLarge: string := "File size cannot exceed 10MB."

  /** The three resume checks, in order; the first failure is reported. */
  function ResumeError(u: Upload): (r: Option<string>)
    ensures r.None? <==>
      Lower(Extension(u.fileName)) in AllowedExtensions && Lower(u.contentType) in AllowedMimeTypes
      && u.length <= MaxResumeBytes
    ensures Lower(Extension(u.fileName)) !in AllowedExtensions ==> r == Some(BadExtension)
  {
    if Lower(Extension(u.fileName)) !in AllowedExtensions then Some(BadExtension)
    else if Lower(u.contentType) !in AllowedMimeTypes then Some(BadMime)
    else if u.length > MaxResumeBytes then Some(TooLarge)
    else None
  }

  /** A double extension is judged by its last part only. */
  lemma DoubleExtensionJudgedByLast()
    ensures Extension("cv.pdf.exe") == ".exe" && Extension("cv.exe.pdf") == ".pdf"
    ensures Lower(".exe") !in AllowedExtensions && Lower(".pdf") in AllowedExtensions
  {
    ExtensionOfSuffix("cv.pdf", "exe");
    assert "cv.pdf" + "." + "exe" == "cv.pdf.exe";
    ExtensionOfSuffix("cv.exe", "pdf");
    assert "cv.exe" + "." + "pdf" == "cv.exe.pdf";
    assert Lower(".exe") == ".exe";
    assert Lower(".pdf") == ".pdf";
  }

  // ---------------------------------------------------------------------
  // Identity's user creation

  /** Identity's default `AllowedUserNameCharacters`. */
  predicate UserNameChar(c: char) {
    IsLetter(c) || IsDigit(c) || c in "-._@+"
  }

  /** `UserValidator`: user-name characters and uniqueness, then email
      shape and uniqueness (`RequireUniqueEmail`). */
  function UserErrors(users: seq<User>, u: User): (r: seq<string>)
    ensures r == [] <==>
      && !IsBlank(u.userName) && (forall i :: 0 <= i < |u.userName| ==> UserNameChar(u.userName[i]))
      && FindByName(users, u.userName).None?
      && !IsBlank(u.email) && EmailShaped(u.email) && FindByEmail(users, u.email).None?
  {
    var nameErrors :=
      if IsBlank(u.userName) || exists i :: 0 <= i < |u.userName| && !UserNameChar(u.userName[i]) then ["InvalidUserName"]
      else if FindByName(users, u.userName).Some? then ["DuplicateUserName"]
      else [];
    var emailErrors :=
      if IsBlank(u.email) || !EmailShaped(u.email) then ["InvalidEmail"]
      else if FindByEmail(users, u.email).Some? then ["DuplicateEmail"]
      else [];
    nameErrors + emailErrors
  }

  /** `UserManager.CreateAsync(user, password)`: the password is validated
      and hashed first, then the user. */
  function Create(users: seq<User>, u: User, password: string): (r: IdentityResult)
    ensures r.Ok? <==> PasswordErrors(password) == [] && UserErrors(users, u) == []
    ensures r.Ok? ==> r.user == u
    ensures PasswordErrors(password) != [] ==> r == Rejected(PasswordErrors(password))
  {
    if PasswordErrors(password) != [] then Rejected(PasswordErrors(password))
    else if UserErrors(users, u) != [] then Rejected(UserErrors(users, u))
    else Ok(u)
  }

  // ---------------------------------------------------------------------
  // The page

  const CaptchaFailed: string := "reCAPTCHA verification failed. Please try again."
  const DuplicateEmail: string := "This email address is already registered."
  const RegisteredLocation: string := "/Login?message=registered"

  /** The page's outcome and the resume file it wrote to the uploads
      directory, if any. */
  datatype RegisterReply = RegisterReply(next: State, response: Response, savedFile: Option<string>)

  /** The account the page builds: the email doubles as user name, the
      free-text fields are HTML-encoded, the NRIC is stored encrypted. */
  function NewUser(f: RegisterForm, id: UserId, hash: string, encryptedNric: string,
                   resumePath: Option<string>, now: int): User
  {
    var profile := Profile(HtmlEncode(f.firstName), HtmlEncode(f.lastName), f.gender, encryptedNric,
                           f.dateOfBirth, resumePath,
                           if f.resume.Some? then Some(f.resume.value.fileName) else None,
                           HtmlEncode(f.whoAmI));
    User(id, f.email, f.email, hash, profile, None, Some(now), now, false, None, None, 0)
  }

  /** Checks up to and including the duplicate-email lookup pass. */
  predicate Admissible(s: State, f: RegisterForm, captchaOk: bool) {
    FormValid(f) && captchaOk && ResumeError(f.resume.value).None? && FindByEmail(s.store.users, f.email).None?
  }

  /** `OnPostAsync`. `encrypt` is the NRIC encryption, `id` the new user's
      GUID, `hash` the hash of the password and `fileId` the GUID naming the
      stored resume. */
  function Post(s: State, req: Request, f: RegisterForm, captchaOk: bool, encrypt: string -> string,
                id: UserId, hash: string, fileId: string): (r: RegisterReply)
    ensures r.next.client == s.client
    ensures r.next.store.sessions == s.store.sessions
    ensures Extends(s.store.audit, r.next.store.audit)
    ensures !FormValid(f) ==> r == RegisterReply(s, Page([]), None)
    ensures FormValid(f) && !captchaOk ==> r == RegisterReply(s, Page([ModelError("", Text(CaptchaFailed))]), None)
    ensures FormValid(f) && captchaOk && ResumeError(f.resume.value).Some? ==>
      r == RegisterReply(s, Page([ModelError("Input.Resume", Text(ResumeError(f.resume.value).value))]), None)
    ensures FormValid(f) && captchaOk && ResumeError(f.resume.value).None? && FindByEmail(s.store.users, f.email).Some? ==>
      r == RegisterReply(s, Page([ModelError("Input.Email", Text(DuplicateEmail))]), None)
    // The file is written as soon as the checks pass, before the account
    // exists, under a fresh name that keeps the lower-cased extension.
    ensures r.savedFile.Some? <==> Admissible(s, f, captchaOk)
    ensures r.savedFile.Some? ==> r.savedFile.value == "Uploads/" + fileId + Lower(Extension(f.resume.value.fileName))
    // The account is created exactly when the library accepts it.
    ensures r.response == Redirect(RegisteredLocation) <==>
      Admissible(s, f, captchaOk) && UserErrors(s.store.users, NewUser(f, id, hash, "", None, req.now)) == []
    ensures r.response == Redirect(RegisteredLocation) ==>
      var u := NewUser(f, id, hash, encrypt(f.nric), r.savedFile, req.now);
      && r.next.store.users == s.store.users + [u]
      && r.next.store.history == s.store.history + [HistoryRow(id, hash, req.now)]
      && r.next.store.audit == LogFor(s.store.audit, req, id, ActRegistration, "User registered successfully.")
    ensures r.response != Redirect(RegisteredLocation) ==> r.next == s
  {
    if !FormValid(f) then RegisterReply(s, Page([]), None)
    else if !captchaOk then RegisterReply(s, Page([ModelError("", Text(CaptchaFailed))]), None)
    else match ResumeError(f.resume.value)
      case Some(m) => RegisterReply(s, Page([ModelError("Input.Resume", Text(m))]), None)
      case None =>
        if FindByEmail(s.store.users, f.email).Some? then
          RegisterReply(s, Page([ModelError("Input.Email", Text(DuplicateEmail))]), None)
        else
          var saved := Some("Uploads/" + fileId + Lower(Extension(f.resume.value.fileName)));
          var u := NewUser(f, id, hash, encrypt(f.nric), saved, req.now);
          FieldValidPassesIdentityPolicy(f.password);
          UserErrorsIgnoreProfile(s.store.users, u, NewUser(f, id, hash, "", None, req.now));
          match Create(s.store.users, u, f.password)
          case Rejected(codes) => RegisterReply(s, Page(ErrorsOf(codes)), saved)
          case Ok(_) =>
            var history := s.store.history + [HistoryRow(id, hash, req.now)];
            var log := LogFor(s.store.audit, req, id, ActRegistration, "User registered successfully.");
            RegisterReply(s.(store := s.store.(users := s.store.users + [u], history := history, audit := log)),
                          Redirect(RegisteredLocation), saved)
  }

  /** A user name the validator accepts holds no `?`. */
  lemma AcceptedNameHasNoQuestionMark(users: seq<User>, u: User)
    requires UserErrors(users, u) == []
    ensures '?' !in u.userName
  {
    forall i | 0 <= i < |u.userName|
      ensures u.userName[i] != '?'
    {
      assert UserNameChar(u.userName[i]);
    }
  }

  /** User validation reads only the user name and the email. */
  lemma UserErrorsIgnoreProfile(users: seq<User>, a: User, b: User)
    requires a.userName == b.userName && a.email == b.email
    ensures UserErrors(users, a) == UserErrors(users, b)
  {
  }

  /** An email the form accepts can still be refused by the library: the
      email doubles as user name, and `'` is not a user-name character. */
  lemma ApostropheEmailIsRefused(s: State, f: RegisterForm, id: UserId, hash: string, now: int)
    requires f.email == "o'b@c"
    ensures EmailShaped(f.email)
    ensures UserErrors(s.store.users, NewUser(f, id, hash, "", None, now)) != []
  {
    assert AtCount("c") == 0;
    assert AtCount("@c") == 1;
    assert AtCount("b@c") == 1;
    assert AtCount("'b@c") == 1;
    assert !UserNameChar(f.email[1]);
  }
}

=== FILE: sessions.dfy ===
/** The `UserSessions` table: rows are created by the two-factor page,
    looked up and touched by the request gate, and deleted wholesale at
    startup. */
module Sessions {
  import opened Base
  import opened Entities

  /** The gate's filter `s.SessionId == sid && s.UserId == uid && s.IsActive`. */
  predicate Matches(row: SessionRow, sid: string, uid: UserId) {
    row.sessionId == sid && row.userId == uid && row.isActive
  }

  /** `FirstOrDefaultAsync` with that filter: the position of the first
      matching row in storage order. */
  function FindActive(rows: seq<SessionRow>, sid: string, uid: UserId): (r: Option<nat>)
    ensures r.Some? ==> r.value < |rows| && Matches(rows[r.value], sid, uid)
    ensures r.Some? ==> forall j :: 0 <= j < r.value ==> !Matches(rows[j], sid, uid)
    ensures r.None? <==> forall j :: 0 <= j < |rows| ==> !Matches(rows[j], sid, uid)
  {
    FindActiveFrom(rows, sid, uid, 0)
  }

  function FindActiveFrom(rows: seq<SessionRow>, sid: string, uid: UserId, k: nat): (r: Option<nat>)
    requires k <= |rows|
    requires forall j :: 0 <= j < k ==> !Matches(rows[j], sid, uid)
    ensures r.Some? ==> k <= r.value < |rows| && Matches(rows[r.value], sid, uid)
    ensures r.Some? ==> forall j :: 0 <= j < r.value ==> !Matches(rows[j], sid, uid)
    ensures r.None? <==> forall j :: 0 <= j < |rows| ==> !Matches(rows[j], sid, uid)
    decreases |rows| - k
  {
    if k == |rows| then None
    else if Matches(rows[k], sid, uid) then Some(k)
    else FindActiveFrom(rows, sid, uid, k + 1)
  }

  /** `userSession.LastActiveAt = DateTime.UtcNow` on the found row. */
  function Touch(rows: seq<SessionRow>, i: nat, now: int): (r: seq<SessionRow>)
    requires i < |rows|
    ensures |r| == |rows| && r[i].lastActiveAt == now
    ensures r[i] == rows[i].(lastActiveAt := r[i].lastActiveAt)
    ensures forall j :: 0 <= j < |rows| && j != i ==> r[j] == rows[j]
  {
    rows[i := rows[i].(lastActiveAt := now)]
  }

  /** The row the two-factor page inserts on a successful sign-in. */
  function NewSession(uid: UserId, sid: string, http: HttpContext, now: int): SessionRow {
    SessionRow(uid, sid, http.remoteIp, Some(http.userAgent), now, now, true)
  }

  /** `UserSessions.ExecuteDelete()` at startup: every row is deleted, not
      flagged inactive. */
  function PurgeOnStartup(st: Store): (r: Store)
    ensures r.sessions == []
    ensures r.users == st.users && r.history == st.history && r.audit == st.audit
    ensures forall sid, uid :: FindActive(r.sessions, sid, uid).None?
  {
    st.(sessions := [])
  }

  /** No row in the table has been flagged inactive. */
  predicate AllActive(rows: seq<SessionRow>) {
    forall i :: 0 <= i < |rows| ==> rows[i].isActive
  }
}

=== FILE: system.dfy ===
/** The service as a whole: one browser and the shared store, moved by any
    of the page handlers or by a restart. States what holds across pages:
    the store invariant every step keeps, the append-only audit log, and
    how the pages' effects meet at the request gate. */
module System {
  import opened Base
  import opened Entities
  import opened Identity
  import opened Audit
  import opened Sessions
  import opened Policy
  import G = Gate
  import LoginPage = Login
  import V = Verify2fa
  import E = Enable2fa
  import CP = ChangePassword
  import R = Recovery
  import L = Logout
  import Reg = Register

  // ---------------------------------------------------------------------
  // Steps

  /** Everything that can happen next: a request to one of the page
      handlers (with the oracles' answers and the fresh values it draws), or
      a restart of the service. */
  datatype Step =
    | Visit(req: Request)
    | PasswordStep(req: Request, form: LoginPage.LoginForm, captchaOk: bool, verify: PasswordVerifier, sid: string)
    | CodeStep(req: Request, code: string, totp: TotpVerifier, sid: string)
    | ShowKey(freshKey: string)
    | EnableStep(req: Request, code: string, totp: TotpVerifier, freshKey: string)
    | DisableStep(req: Request, freshKey: string)
    | ChangeStep(req: Request, change: CP.ChangeForm, verify: PasswordVerifier, newHash: string)
    | ForgotStep(req: Request, email: string)
    | ResetStep(req: Request, reset: R.ResetForm, tokenValid: bool, verify: PasswordVerifier, newHash: string)
    | LogoutStep(req: Request)
    | RegisterStep(req: Request, registration: Reg.RegisterForm, captchaOk: bool, encrypt: string -> string,
                   id: UserId, hash: string, fileId: string)
    | Restart

  /** What the environment guarantees about a step's fresh values: keys come
      from the key generator, and a new user's GUID is used nowhere yet. */
  predicate Allowed(s: State, step: Step) {
    match step
    case ShowKey(k) => E.GeneratedKey(k)
    case EnableStep(_, _, _, k) => E.GeneratedKey(k)
    case DisableStep(_, k) => E.GeneratedKey(k)
    case RegisterStep(_, _, _, _, id, _, _) =>
      (forall u :: u in s.store.users ==> u.id != id) && (forall x :: x in s.store.history ==> x.userId != id)
    case _ => true
  }

  /** The state after a step. */
  function Apply(s: State, step: Step): State
    requires Allowed(s, step)
  {
    match step
    case Visit(req) => G.Gate(s, req).next
    case PasswordStep(req, f, ok, verify, sid) => LoginPage.Post(s, req, f, ok, verify, sid).next
    case CodeStep(req, code, totp, sid) => V.Post(s, req, code, totp, sid).next
    case ShowKey(k) => E.Get(s, k).next
    case EnableStep(req, code, totp, k) => E.PostEnable(s, req, code, totp, k).next
    case DisableStep(req, k) => E.PostDisable(s, req, k).next
    case ChangeStep(req, f, verify, hash) => CP.Post(s, req, f, verify, hash).next
    case ForgotStep(req, email) => R.Forgot(s, req, email).next
    case ResetStep(req, f, ok, verify, hash) => R.Reset(s, req, f, ok, verify, hash).next
    case LogoutStep(req) => L.Post(s, req).next
    case RegisterStep(req, f, ok, encrypt, id, hash, fileId) => Reg.Post(s, req, f, ok, encrypt, id, hash, fileId).next
    case Restart => State(PurgeOnStartup(s.store), s.client)
  }

  // ---------------------------------------------------------------------
  // The store invariant

  /** No two accounts share an id. */
  predicate UniqueIds(users: seq<User>) {
    forall i, j :: 0 <= i < j < |users| ==> users[i].id != users[j].id
  }

  /** No user has more than three history rows (the prune keeps the two
      newest of the old rows beside the new one). */
  ghost predicate HistoryBounded(h: seq<HistoryRow>) {
    forall uid :: |RowsOf(h, uid)| <= HistoryDepth + 1
  }

  ghost predicate Invariant(st: Store) {
    UniqueIds(st.users) && AllActive(st.sessions) && HistoryBounded(st.history)
  }

  /** The empty store of a fresh deployment. */
  lemma EmptyStoreIsValid()
    ensures Invariant(Store([], [], [], []))
  {
  }

  /** Every step keeps the invariant and only appends to the audit log. */
  lemma StepPreservesInvariant(s: State, step: Step)
    requires Invariant(s.store) && Allowed(s, step)
    ensures Invariant(Apply(s, step).store)
    ensures Extends(s.store.audit, Apply(s, step).store.audit)
  {
    if step.Visit? || step.PasswordStep? || step.CodeStep? || step.LogoutStep? || step.Restart? {
      SignInStepKeepsInvariant(s, step);
    } else {
      AccountStepKeepsInvariant(s, step);
    }
  }

  /** The gate, the two sign-in steps, sign-out and restart. */
  lemma SignInStepKeepsInvariant(s: State, step: Step)
    requires Invariant(s.store) && Allowed(s, step)
    requires step.Visit? || step.PasswordStep? || step.CodeStep? || step.LogoutStep? || step.Restart?
    ensures Invariant(Apply(s, step).store)
    ensures Extends(s.store.audit, Apply(s, step).store.audit)
  {
    match step
    case Visit(req) => GateKeepsInvariant(s, req);
    case PasswordStep(req, f, ok, verify, sid) => PasswordKeepsInvariant(s, req, f, ok, verify, sid);
    case CodeStep(req, code, totp, sid) => CodeKeepsInvariant(s, req, code, totp, sid);
    case LogoutStep(req) => LogoutKeepsInvariant(s, req);
    case Restart =>
  }

  /** The pages that change account settings or the password, and
      registration. */
  lemma AccountStepKeepsInvariant(s: State, step: Step)
    requires Invariant(s.store) && Allowed(s, step)
    requires !(step.Visit? || step.PasswordStep? || step.CodeStep? || step.LogoutStep? || step.Restart?)
    ensures Invariant(Apply(s, step).store)
    ensures Extends(s.store.audit, Apply(s, step).store.audit)
  {
    match step
    case ShowKey(k) => ShowKeyKeepsInvariant(s, k);
    case EnableStep(req, code, totp, k) => EnableKeepsInvariant(s, req, code, totp, k);
    case DisableStep(req, k) => DisableKeepsInvariant(s, req, k);
    case ChangeStep(req, f, verify, hash) => ChangeKeepsInvariant(s, req, f, verify, hash);
    case ForgotStep(req, email) =>
    case ResetStep(req, f, ok, verify, hash) => ResetKeepsInvariant(s, req, f, ok, verify, hash);
    case RegisterStep(req, f, ok, encrypt, id, hash, fileId) =>
      RegisterKeepsInvariant(s, req, f, ok, encrypt, id, hash, fileId);
  }

  lemma GateKeepsInvariant(s: State, req: Request)
    requires Invariant(s.store)
    ensures Invariant(G.Gate(s, req).next.store)
    ensures Extends(s.store.audit, G.Gate(s, req).next.store.audit)
  {
    var t := G.Gate(s, req).next;
    assert t.store.users == s.store.users && t.store.history == s.store.history;
    forall j | 0 <= j < |t.store.sessions| ensures t.store.sessions[j].isActive {
      assert t.store.sessions[j] == s.store.sessions[j].(lastActiveAt := t.store.sessions[j].lastActiveAt);
    }
  }

  lemma PasswordKeepsInvariant(s: State, req: Request, f: LoginPage.LoginForm, ok: bool, verify: PasswordVerifier,
                               sid: string)
    requires Invariant(s.store)
    ensures Invariant(LoginPage.Post(s, req, f, ok, verify, sid).next.store)
    ensures Extends(s.store.audit, LoginPage.Post(s, req, f, ok, verify, sid).next.store.audit)
  {
    IdsKeepUnique(s.store.users, LoginPage.Post(s, req, f, ok, verify, sid).next.store.users);
  }

  lemma CodeKeepsInvariant(s: State, req: Request, code: string, totp: TotpVerifier, sid: string)
    requires Invariant(s.store)
    ensures Invariant(V.Post(s, req, code, totp, sid).next.store)
    ensures Extends(s.store.audit, V.Post(s, req, code, totp, sid).next.store.audit)
  {
    IdsKeepUnique(s.store.users, V.Post(s, req, code, totp, sid).next.store.users);
  }

  lemma ShowKeyKeepsInvariant(s: State, k: string)
    requires Invariant(s.store) && E.GeneratedKey(k)
    ensures Invariant(E.Get(s, k).next.store)
    ensures Extends(s.store.audit, E.Get(s, k).next.store.audit)
  {
    IdsKeepUnique(s.store.users, E.Get(s, k).next.store.users);
  }

  lemma EnableKeepsInvariant(s: State, req: Request, code: string, totp: TotpVerifier, k: string)
    requires Invariant(s.store) && E.GeneratedKey(k)
    ensures Invariant(E.PostEnable(s, req, code, totp, k).next.store)
    ensures Extends(s.store.audit, E.PostEnable(s, req, code, totp, k).next.store.audit)
  {
    IdsKeepUnique(s.store.users, E.PostEnable(s, req, code, totp, k).next.store.users);
  }

  lemma DisableKeepsInvariant(s: State, req: Request, k: string)
    requires Invariant(s.store) && E.GeneratedKey(k)
    ensures Invariant(E.PostDisable(s, req, k).next.store)
    ensures Extends(s.store.audit, E.PostDisable(s, req, k).next.store.audit)
  {
    IdsKeepUnique(s.store.users, E.PostDisable(s, req, k).next.store.users);
  }

  lemma LogoutKeepsInvariant(s: State, req: Request)
    requires Invariant(s.store)
    ensures Invariant(L.Post(s, req).next.store)
    ensures Extends(s.store.audit, L.Post(s, req).next.store.audit)
  {
    IdsKeepUnique(s.store.users, L.Post(s, req).next.store.users);
  }

  lemma IdsKeepUnique(a: seq<User>, b: seq<User>)
    requires UniqueIds(a) && SameIds(a, b)
    ensures UniqueIds(b)
  {
  }

  /** A recorded change leaves the changing user at most three rows and
      every other user's rows as they were. */
  lemma RecordedHistoryBounded(h: seq<HistoryRow>, h2: seq<HistoryRow>, uid: UserId, added: HistoryRow)
    requires HistoryBounded(h)
    requires RowsOf(h2, uid) == Recent(h, uid) + [added]
    requires forall v :: v != uid ==> RowsOf(h2, v) == RowsOf(h, v)
    ensures HistoryBounded(h2)
  {
    forall v ensures |RowsOf(h2, v)| <= HistoryDepth + 1 {
      if v != uid {
        assert RowsOf(h2, v) == RowsOf(h, v);
      }
    }
  }

  lemma ChangeKeepsInvariant(s: State, req: Request, f: CP.ChangeForm, verify: PasswordVerifier, hash: string)
    requires Invariant(s.store)
    ensures Invariant(CP.Post(s, req, f, verify, hash).next.store)
    ensures Extends(s.store.audit, CP.Post(s, req, f, verify, hash).next.store.audit)
  {
    var r := CP.Post(s, req, f, verify, hash);
    if r.response == Redirect(CP.ChangedLocation) {
      var u := CurrentUser(s).value;
      UpdateUserSameIds(s.store.users, u.(passwordHash := hash, lastPasswordChange := Some(req.now)));
      IdsKeepUnique(s.store.users, r.next.store.users);
      RecordedHistoryBounded(s.store.history, r.next.store.history, u.id, HistoryRow(u.id, hash, req.now));
    }
  }

  lemma ResetKeepsInvariant(s: State, req: Request, f: R.ResetForm, ok: bool, verify: PasswordVerifier, hash: string)
    requires Invariant(s.store)
    ensures Invariant(R.Reset(s, req, f, ok, verify, hash).next.store)
    ensures Extends(s.store.audit, R.Reset(s, req, f, ok, verify, hash).next.store.audit)
  {
    var r := R.Reset(s, req, f, ok, verify, hash);
    if r.next.store.audit != s.store.audit {
      var u := FindByEmail(s.store.users, f.email).value;
      UpdateUserSameIds(s.store.users, u.(passwordHash := hash, lastPasswordChange := Some(req.now),
                                          lockoutEnd := None, accessFailedCount := 0));
      IdsKeepUnique(s.store.users, r.next.store.users);
      RecordedHistoryBounded(s.store.history, r.next.store.history, u.id, HistoryRow(u.id, hash, req.now));
    }
  }

  lemma RegisterKeepsInvariant(s: State, req: Request, f: Reg.RegisterForm, ok: bool, encrypt: string -> string,
                               id: UserId, hash: string, fileId: string)
    requires Invariant(s.store)
    requires forall u :: u in s.store.users ==> u.id != id
    requires forall x :: x in s.store.history ==> x.userId != id
    ensures Invariant(Reg.Post(s, req, f, ok, encrypt, id, hash, fileId).next.store)
    ensures Extends(s.store.audit, Reg.Post(s, req, f, ok, encrypt, id, hash, fileId).next.store.audit)
  {
    var r := Reg.Post(s, req, f, ok, encrypt, id, hash, fileId);
    if r.response == Redirect(Reg.RegisteredLocation) {
      var u := Reg.NewUser(f, id, hash, encrypt(f.nric), r.savedFile, req.now);
      assert r.next.store.users == s.store.users + [u];
      AppendFreshUser(s.store.users, u);
      AppendFirstRow(s.store.history, HistoryRow(id, hash, req.now));
    }
  }

  /** A user whose id is not in use keeps the ids unique. */
  lemma AppendFreshUser(users: seq<User>, u: User)
    requires UniqueIds(users) && forall x :: x in users ==> x.id != u.id
    ensures UniqueIds(users + [u])
  {
    var t := users + [u];
    forall i, j | 0 <= i < j < |t| ensures t[i].id != t[j].id {
      assert t[i] == users[i] && t[i] in users;
    }
  }

  /** The first row of a new user keeps every user within the bound. */
  lemma AppendFirstRow(h: seq<HistoryRow>, row: HistoryRow)
    requires HistoryBounded(h) && forall x :: x in h ==> x.userId != row.userId
    ensures HistoryBounded(h + [row])
  {
    forall v ensures |RowsOf(h + [row], v)| <= HistoryDepth + 1 {
      RowsOfAppend(h, [row], v);
      if v == row.userId {
        RowsOfForeign(h, v);
      }
    }
  }


  // ---------------------------------------------------------------------
  // Runs

  /** Every step of the run is allowed in the state it meets. */
  predicate AllowedRun(s: State, steps: seq<Step>)
    decreases |steps|
  {
    steps == [] || (Allowed(s, steps[0]) && AllowedRun(Apply(s, steps[0]), steps[1..]))
  }

  function Run(s: State, steps: seq<Step>): State
    requires AllowedRun(s, steps)
    decreases |steps|
  {
    if steps == [] then s else Run(Apply(s, steps[0]), steps[1..])
  }

  /** Any run from a valid store ends in a valid store, and no audit record
      written before the run is changed or removed by it. */
  lemma {:induction false} RunPreservesInvariant(s: State, steps: seq<Step>)
    requires Invariant(s.store) && AllowedRun(s, steps)
    ensures Invariant(Run(s, steps).store)
    ensures Extends(s.store.audit, Run(s, steps).store.audit)
    decreases |steps|
  {
    if steps != [] {
      var t := Apply(s, steps[0]);
      StepPreservesInvariant(s, steps[0]);
      RunPreservesInvariant(t, steps[1..]);
      ExtendsTransitive(s.store.audit, t.store.audit, Run(t, steps[1..]).store.audit);
    }
  }

  // ---------------------------------------------------------------------
  // How the pages meet at the gate

  /** The landing page after sign-in is guarded. */
  lemma IndexIsGuarded()
    ensures !G.Exempt("/Index")
  {
    assert Lower("/Index") == "/index";
  }

  /** A user found in the table is found again by id once written back. */
  lemma WrittenBackUserIsCurrent(users: seq<User>, u: User, v: User)
    requires u in users && v.id == u.id
    ensures FindById(UpdateUser(users, v), u.id) == Some(v)
  {
    var i :| 0 <= i < |users| && users[i] == u;
    FindByIdUpdated(users, v);
  }

  /** A password-only sign-in records the session id on the user and in
      the browser, but writes no session row; so the next request to any
      guarded page, the `/Index` it redirects to included, is signed out and
      sent back to log in. */
  lemma PasswordLoginIsBouncedByGate(s: State, req: Request, f: LoginPage.LoginForm, ok: bool,
                                     verify: PasswordVerifier, sid: string, next: Request)
    requires LoginPage.Post(s, req, f, ok, verify, sid).response == Redirect("/Index")
    requires forall j :: 0 <= j < |s.store.sessions| ==> s.store.sessions[j].sessionId != sid
    requires !G.Exempt(next.path)
    ensures var t := LoginPage.Post(s, req, f, ok, verify, sid).next;
            var g := G.Gate(t, next);
      && g.verdict == G.Bounce(G.SessionExpiredPath)
      && g.next.client.principal.None?
      && g.next.store == t.store
  {
    var t := LoginPage.Post(s, req, f, ok, verify, sid).next;
    var u := FindByEmail(s.store.users, f.email).value;
    WrittenBackUserIsCurrent(s.store.users, u, u.(sessionId := Some(sid), accessFailedCount := 0));
    assert CurrentUser(t).Some?;
    assert TransportSessionId(t.client) == Some(sid);
    if sid != "" {
      assert FindActive(t.store.sessions, sid, u.id).None?;
    }
  }

  /** The two-factor sign-in writes the row the gate looks for: the next
      request to a guarded page keeps the user signed in, and is let through
      unless the password has expired. */
  lemma CodeLoginPassesGate(s: State, req: Request, code: string, totp: TotpVerifier, sid: string, next: Request)
    requires V.Post(s, req, code, totp, sid).response == Redirect("/Index")
    requires sid != ""
    requires !G.Exempt(next.path)
    ensures var t := V.Post(s, req, code, totp, sid).next;
            var g := G.Gate(t, next);
      && (g.verdict == G.Proceed || g.verdict == G.Bounce(G.PasswordExpiredPath))
      && g.next.client == t.client
  {
    var t := V.Post(s, req, code, totp, sid).next;
    var u := V.PendingUser(s).value;
    WrittenBackUserIsCurrent(s.store.users, u, u.(accessFailedCount := 0));
    assert TransportSessionId(t.client) == Some(sid);
    var n := |s.store.sessions|;
    assert Matches(t.store.sessions[n], sid, u.id);
    assert G.HasLiveSession(t, CurrentUser(t).value);
  }

  /** With ids unique, the user found by email is the one found by id. */
  lemma FoundByEmailIsFoundById(users: seq<User>, u: User)
    requires UniqueIds(users) && u in users
    ensures FindById(users, u.id) == Some(u)
  {
    var w := FindById(users, u.id).value;
    var i :| 0 <= i < |users| && users[i] == u;
    var j :| 0 <= j < |users| && users[j] == w;
    assert i == j;
  }

  /** The full sign-in of an account with two-factor on: the right password
      leads to the code page, and an accepted code then lets the browser past
      the gate. */
  lemma TwoFactorSignInReachesGuardedPages(s: State, req: Request, f: LoginPage.LoginForm, verify: PasswordVerifier,
                                           sid1: string, req2: Request, code: string, totp: TotpVerifier,
                                           sid2: string, next: Request)
    requires UniqueIds(s.store.users)
    requires LoginPage.FormValid(f) && LoginPage.Eligible(s, req, f)
    requires var u := FindByEmail(s.store.users, f.email).value;
      && TwoFactorActive(u) && verify(u.passwordHash, f.password)
      && V.CodeFieldValid(code) && !IsLockedOut(u, req2.now)
      && totp(u.authenticatorKey, V.NormalizeCode(code), req2.now)
    requires sid2 != "" && !G.Exempt(next.path)
    ensures var t1 := LoginPage.Post(s, req, f, true, verify, sid1);
            var t2 := V.Post(t1.next, req2, code, totp, sid2);
      && t1.response == Redirect("/Verify2fa")
      && t2.response == Redirect("/Index")
      && var g := G.Gate(t2.next, next);
         g.verdict == G.Proceed || g.verdict == G.Bounce(G.PasswordExpiredPath)
  {
    var u := FindByEmail(s.store.users, f.email).value;
    var t1 := LoginPage.Post(s, req, f, true, verify, sid1);
    FoundByEmailIsFoundById(s.store.users, u);
    assert V.PendingUser(t1.next) == Some(u);
    CodeLoginPassesGate(t1.next, req2, code, totp, sid2, next);
  }

  /** Sign-out leaves the browser's session row active: the table does not
      record that the session ended. */
  lemma LogoutKeepsSessionRowLive(s: State, req: Request)
    requires CurrentUser(s).Some? && G.HasLiveSession(s, CurrentUser(s).value)
    ensures var t := L.Post(s, req).next;
      && t.client.principal.None?
      && FindActive(t.store.sessions, TransportSessionId(s.client).value, CurrentUser(s).value.id).Some?
  {
  }

  // ---------------------------------------------------------------------
  // Two-factor enrolment across requests

  /** The enrolment page stores the key it shows. */
  lemma EnrolmentPageStoresKey(s: State, k: string)
    requires E.GeneratedKey(k)
    requires CurrentUser(s).Some? && !CurrentUser(s).value.twoFactorEnabled
    ensures var u := CurrentUser(s).value;
            var v := E.LoadKey(u, k);
            var key := v.authenticatorKey.value;
            var g := E.Get(s, k);
      && g.setup == Some(E.Setup(Lower(E.Groups(key)), E.QrUri(u.email, key)))
      && CurrentUser(g.next) == Some(v)
  {
    var u := CurrentUser(s).value;
    WrittenBackUserIsCurrent(s.store.users, u, E.LoadKey(u, k));
  }

  /** The key the enrolment page shows is the key the enable step checks
      codes against, and once enabled the account needs a code at sign-in. */
  lemma EnrolmentChecksShownKey(s: State, k: string, req: Request, code: string, totp: TotpVerifier, k2: string)
    requires E.GeneratedKey(k) && E.GeneratedKey(k2)
    requires CurrentUser(s).Some? && !CurrentUser(s).value.twoFactorEnabled
    ensures var u := CurrentUser(s).value;
            var key := E.LoadKey(u, k).authenticatorKey.value;
            var g := E.Get(s, k);
            var e := E.PostEnable(g.next, req, code, totp, k2);
      && g.setup == Some(E.Setup(Lower(E.Groups(key)), E.QrUri(u.email, key)))
      && (e.status == Some(E.EnabledStatus) <==> V.CodeFieldValid(code) && totp(Some(key), V.NormalizeCode(code), req.now))
      && (e.status == Some(E.EnabledStatus) ==> TwoFactorActive(FindById(e.next.store.users, u.id).value))
  {
    var u := CurrentUser(s).value;
    var v := E.LoadKey(u, k);
    EnrolmentPageStoresKey(s, k);
    var g := E.Get(s, k);
    assert CurrentUser(g.next) == Some(v);
    assert v.authenticatorKey == Some(v.authenticatorKey.value);
    var e := E.PostEnable(g.next, req, code, totp, k2);
    assert e.status == Some(E.EnabledStatus) <==>
      V.CodeFieldValid(code) && totp(v.authenticatorKey, V.NormalizeCode(code), req.now);
    EnableTurnsOnTwoFactor(g.next, req, code, totp, k2);
  }

  /** A successful enable step leaves the signed-in user with two-factor
      sign-in in force. */
  lemma EnableTurnsOnTwoFactor(t: State, req: Request, code: string, totp: TotpVerifier, k2: string)
    requires E.GeneratedKey(k2) && CurrentUser(t).Some? && !IsNullOrEmpty(CurrentUser(t).value.authenticatorKey)
    ensures var v := CurrentUser(t).value;
            var e := E.PostEnable(t, req, code, totp, k2);
      e.status == Some(E.EnabledStatus) ==> TwoFactorActive(FindById(e.next.store.users, v.id).value)
  {
    var v := CurrentUser(t).value;
    var e := E.PostEnable(t, req, code, totp, k2);
    if e.status == Some(E.EnabledStatus) {
      WrittenBackUserIsCurrent(t.store.users, v, v.(twoFactorEnabled := true));
    }
  }

  /** Turning two-factor off replaces the key: the enrolment page shown
      afterwards offers the new key, not the one the authenticator app
      holds. */
  lemma DisableReplacesKey(s: State, req: Request, k: string, k2: string)
    requires E.GeneratedKey(k) && E.GeneratedKey(k2) && CurrentUser(s).Some?
    ensures var u := CurrentUser(s).value;
            var t := E.PostDisable(s, req, k).next;
      E.Get(t, k2).setup == Some(E.Setup(Lower(E.Groups(k)), E.QrUri(u.email, k)))
  {
    var u := CurrentUser(s).value;
    var v := u.(twoFactorEnabled := false, authenticatorKey := Some(k));
    var t := E.PostDisable(s, req, k).next;
    WrittenBackUserIsCurrent(s.store.users, u, v);
    assert CurrentUser(t) == Some(v);
  }

  /** The unescaped email in the authenticator URI does no harm to accounts
      made by registration: the email is also the user name, `?` is not a
      user-name character, so the URI for any generated key carries the
      stored email and the key back intact. */
  lemma RegisteredEmailGivesFaithfulUri(s: State, req: Request, f: Reg.RegisterForm, ok: bool,
                                        encrypt: string -> string, id: UserId, hash: string, fileId: string, k: string)
    requires Reg.Post(s, req, f, ok, encrypt, id, hash, fileId).response == Redirect(Reg.RegisteredLocation)
    requires E.GeneratedKey(k)
    ensures var users := Reg.Post(s, req, f, ok, encrypt, id, hash, fileId).next.store.users;
      |users| > 0 && users[|users| - 1].email == f.email
    ensures '?' !in f.email
    ensures E.ParseQrUri(E.QrUri(f.email, k)) == Some((f.email, k))
  {
    var r := Reg.Post(s, req, f, ok, encrypt, id, hash, fileId);
    var u := Reg.NewUser(f, id, hash, encrypt(f.nric), r.savedFile, req.now);
    assert r.next.store.users == s.store.users + [u];
    Reg.UserErrorsIgnoreProfile(s.store.users, Reg.NewUser(f, id, hash, "", None, req.now), u);
    Reg.AcceptedNameHasNoQuestionMark(s.store.users, u);
    E.GeneratedKeyUriRoundTrip(f.email, k);
  }

  // ---------------------------------------------------------------------
  // Password changes across requests

  /** A password just set cannot be set again by the next change, whenever
      it comes and from whichever browser: it is either too soon or a reuse. */
  lemma ChangedPasswordCannotBeSetAgain(s: State, req: Request, f: CP.ChangeForm, verify: PasswordVerifier,
                                        hash: string, c: Client, req2: Request, f2: CP.ChangeForm, hash2: string)
    requires CP.Post(s, req, f, verify, hash).response == Redirect(CP.ChangedLocation)
    requires var u := CurrentUser(s).value;
      forall x :: x in s.store.history && x.userId == u.id ==> x.createdDate <= req.now
    requires c.principal == s.client.principal
    requires verify(hash, f2.newPassword)
    ensures var t := CP.Post(s, req, f, verify, hash).next;
      CP.Post(State(t.store, c), req2, f2, verify, hash2).response != Redirect(CP.ChangedLocation)
  {
    var u := CurrentUser(s).value;
    var v := u.(passwordHash := hash, lastPasswordChange := Some(req.now));
    var t := CP.Post(s, req, f, verify, hash).next;
    assert t.store.users == UpdateUser(s.store.users, v);
    var s2 := State(t.store, c);
    WrittenBackUserIsCurrent(s.store.users, u, v);
    assert CurrentUser(s2) == Some(v);
    var h := s.store.history;
    JustRecordedPasswordIsReused(h, u.id, hash, req.now, f2.newPassword, verify);
    assert RowsOf(t.store.history, u.id) == RowsOf(RecordChange(h, u.id, hash, req.now), u.id);
    assert Recent(t.store.history, u.id) == Recent(RecordChange(h, u.id, hash, req.now), u.id);
    assert ReusesRecentPassword(t.store.history, u.id, f2.newPassword, verify);
    assert !CP.Admissible(s2, req2, f2, verify);
  }

  /** A reset has no minimum-age check: it goes through within minutes of a
      change that the change page itself would refuse to repeat. */
  lemma ResetIgnoresMinimumAge(s: State, req: Request, f: R.ResetForm, verify: PasswordVerifier, hash: string)
    requires R.ResetFormValid(f) && FindByEmail(s.store.users, f.email).Some?
    requires var u := FindByEmail(s.store.users, f.email).value;
      TooSoonToChange(u.lastPasswordChange, req.now) && !ReusesRecentPassword(s.store.history, u.id, f.newPassword, verify)
    ensures var u := FindByEmail(s.store.users, f.email).value;
            var r := R.Reset(s, req, f, true, verify, hash);
      && r.response == Redirect(R.ResetLocation)
      && FindById(r.next.store.users, u.id)
         == Some(u.(passwordHash := hash, lastPasswordChange := Some(req.now), lockoutEnd := None, accessFailedCount := 0))
  {
    var u := FindByEmail(s.store.users, f.email).value;
    var v := u.(passwordHash := hash, lastPasswordChange := Some(req.now), lockoutEnd := None, accessFailedCount := 0);
    var r := R.Reset(s, req, f, true, verify, hash);
    assert r.next.store.users == UpdateUser(s.store.users, v);
    WrittenBackUserIsCurrent(s.store.users, u, v);
  }

  // ---------------------------------------------------------------------
  // Redirect messages

  /** The keys the pages put into `/Login?message=...`. */
  const IssuedLoginKeys: set<string> :=
    {LoginPage.Registered, LoginPage.SessionExpired, LoginPage.LoggedOut, LoginPage.PasswordChanged, LoginPage.PasswordReset}

  /** The messages that registration, the gate and sign-out send to the
      login page are spelled with the keys the login page reads. */
  lemma IssuedLocationsCarryKeys()
    ensures Reg.RegisteredLocation == "/Login?message=" + LoginPage.Registered
    ensures G.SessionExpiredPath == "/Login?message=" + LoginPage.SessionExpired
    ensures L.LoggedOutLocation == "/Login?message=" + LoginPage.LoggedOut
  {
  }

  /** The password pages' redirects carry the keys the login page reads. */
  lemma PasswordLocationsCarryKeys()
    ensures CP.ChangedLocation == "/Login?message=" + LoginPage.PasswordChanged
    ensures R.ResetLocation == "/Login?message=" + LoginPage.PasswordReset
  {
  }

  /** The gate's expiry redirect carries the key the change page reads. */
  lemma ExpiryLocationCarriesKey()
    ensures G.PasswordExpiredPath == "/ChangePassword?message=" + CP.ExpiredKey
  {
  }

  /** Each issued key has a banner; the "another login" banner is never
      asked for. */
  lemma IssuedKeysHaveBanners()
    ensures forall k :: k in IssuedLoginKeys ==> LoginPage.Banner(Some(k)).Some?
    ensures LoginPage.AnotherLogin !in IssuedLoginKeys
    ensures CP.Banner(Some(CP.ExpiredKey)).Some?
  {
    forall k | k in IssuedLoginKeys ensures LoginPage.Banner(Some(k)).Some? {
      assert k in LoginPage.BannerKeys;
    }
  }
}

=== FILE: verify2fa.dfy ===
/** The second sign-in step (ApplicationSecurity/Pages/Verify2fa.cshtml.cs):
    the user remembered by the two-factor cookie submits an authenticator
    code; on success a session row is written and the transport session is
    bound to it. */
module Verify2fa {
  import opened Base
  import opened Entities
  import opened Identity
  import opened Audit
  import opened Forms
  import opened Sessions

  /** `SignInManager.GetTwoFactorAuthenticationUserAsync`: the user named by
      the two-factor cookie, if that user still exists. */
  function PendingUser(s: State): (r: Option<User>)
    ensures r.Some? <==> s.client.twoFactorUser.Some? && FindById(s.store.users, s.client.twoFactorUser.value).Some?
    ensures r.Some? ==> r.value in s.store.users && r.value.id == s.client.twoFactorUser.value
  {
    if s.client.twoFactorUser.None? then None else FindById(s.store.users, s.client.twoFactorUser.value)
  }

  /** `OnGetAsync`: the page is shown only while a sign-in is pending. */
  function Get(s: State): (r: Response)
    ensures r == Page([]) <==> PendingUser(s).Some?
    ensures r.Redirect? ==> r.location == "/Login"
  {
    if PendingUser(s).None? then Redirect("/Login") else Page([])
  }

  /** `[Required, StringLength(7, MinimumLength = 6)]` on the code. */
  predicate CodeFieldValid(code: string) {
    Required(code) && 6 <= |code| <= 7
  }

  /** `Code.Replace(" ", "").Replace("-", "")`. */
  function NormalizeCode(code: string): (r: string)
    ensures ' ' !in r && '-' !in r
    ensures |r| <= |code|
    ensures forall c :: c in r ==> c in code
  {
    Remove(Remove(code, ' '), '-')
  }

  /** Normalising twice is normalising once. */
  lemma NormalizeCodeIdempotent(code: string)
    ensures NormalizeCode(NormalizeCode(code)) == NormalizeCode(code)
  {
    var once := NormalizeCode(code);
    RemoveAbsent(once, ' ');
    RemoveAbsent(once, '-');
  }

  /** Separators are dropped wherever they stand: a code typed in two
      pieces normalises to the two pieces normalised. */
  lemma NormalizeCodeSplits(a: string, b: string)
    ensures NormalizeCode(a + " " + b) == NormalizeCode(a) + NormalizeCode(b)
    ensures NormalizeCode(a + "-" + b) == NormalizeCode(a) + NormalizeCode(b)
  {
    SeparatorVanishes(a, b, ' ');
    SeparatorVanishes(a, b, '-');
  }

  lemma SeparatorVanishes(a: string, b: string, sep: char)
    requires sep == ' ' || sep == '-'
    ensures NormalizeCode(a + [sep] + b) == NormalizeCode(a) + NormalizeCode(b)
  {
    var x := Remove(a, ' ');
    var y := Remove(b, ' ');
    var mid := Remove([sep], ' ');
    RemoveDistributes(a + [sep], b, ' ');
    RemoveDistributes(a, [sep], ' ');
    assert Remove(a + [sep] + b, ' ') == x + mid + y;
    RemoveDistributes(x + mid, y, '-');
    RemoveDistributes(x, mid, '-');
    assert Remove(mid, '-') == [] by {
      assert [sep][1..] == [];
    }
  }

  const CodeRejected: string := "Invalid verification code. Please try again."
  const LockedLater: string := "Account locked due to multiple failed attempts. Please try again later."

  /** `OnPostAsync`. `totp` is the authenticator check and `sid` the fresh
      GUID text for the new session. */
  function Post(s: State, req: Request, code: string, totp: TotpVerifier, sid: string): (r: Reply)
    ensures SameIds(s.store.users, r.next.store.users)
    ensures r.next.store.history == s.store.history
    ensures Extends(s.store.audit, r.next.store.audit) && |r.next.store.audit| <= |s.store.audit| + 1
    ensures !CodeFieldValid(code) ==> r == Reply(s, Page([]))
    ensures CodeFieldValid(code) && PendingUser(s).None? ==> r == Reply(s, Redirect("/Login"))
    // Success needs a pending user who is not locked and a code the
    // authenticator accepts after normalisation.
    ensures r.response == Redirect("/Index") <==>
      CodeFieldValid(code) && PendingUser(s).Some?
      && !IsLockedOut(PendingUser(s).value, req.now)
      && totp(PendingUser(s).value.authenticatorKey, NormalizeCode(code), req.now)
    // On success exactly one active row is added, and the browser is bound to it.
    ensures r.response == Redirect("/Index") ==>
      var u := PendingUser(s).value;
      && r.next.store.sessions == s.store.sessions + [NewSession(u.id, sid, req.http, req.now)]
      && r.next.client == Client(Some(u.id), None, s.client.transport[SessionKey := sid])
      && r.next.store.users == UpdateUser(s.store.users, u.(accessFailedCount := 0))
      && r.next.store.audit == LogFor(s.store.audit, req, u.id, ActLogin, "User logged in with 2FA verification.")
    // Every other outcome writes no session row and leaves the browser alone.
    ensures r.response != Redirect("/Index") ==>
      r.next.store.sessions == s.store.sessions && r.next.client == s.client
    // A rejected code counts against the account like a wrong password, and
    // is reported as a wrong code even when that count sets the lock.
    ensures CodeFieldValid(code) && PendingUser(s).Some? && !IsLockedOut(PendingUser(s).value, req.now)
            && !totp(PendingUser(s).value.authenticatorKey, NormalizeCode(code), req.now) ==>
      var u := PendingUser(s).value;
      && r.next.store.users == UpdateUser(s.store.users, AccessFailed(u, req.now))
      && r.response == Page([ModelError("", Text(CodeRejected))])
      && r.next.store.audit == LogFor(s.store.audit, req, u.id, Act2faFailed, "Invalid 2FA verification code.")
    // An account already locked is refused whatever the code, and is not written.
    ensures CodeFieldValid(code) && PendingUser(s).Some? && IsLockedOut(PendingUser(s).value, req.now) ==>
      && r.response == Page([ModelError("", Text(LockedLater))])
      && r.next.store.users == s.store.users
      && r.next.store.audit == LogFor(s.store.audit, req, PendingUser(s).value.id, ActAccountLocked,
                                      "Account locked after multiple failed 2FA attempts.")
  {
    if !CodeFieldValid(code) then Reply(s, Page([]))
    else match PendingUser(s)
      case None => Reply(s, Redirect("/Login"))
      case Some(u) =>
        var attempt := TwoFactorSignIn(u, NormalizeCode(code), req.now, totp);
        // A locked account is refused before the store is written.
        var users := if IsLockedOut(u, req.now) then s.store.users else UpdateUser(s.store.users, attempt.user);
        match attempt.result
        case SignedIn =>
          var row := NewSession(u.id, sid, req.http, req.now);
          var log := LogFor(s.store.audit, req, u.id, ActLogin, "User logged in with 2FA verification.");
          var client := Client(Some(u.id), None, s.client.transport[SessionKey := sid]);
          Reply(State(s.store.(users := users, sessions := s.store.sessions + [row], audit := log), client),
                Redirect("/Index"))
        case LockedOut =>
          var log := LogFor(s.store.audit, req, u.id, ActAccountLocked,
                            "Account locked after multiple failed 2FA attempts.");
          Reply(s.(store := s.store.(users := users, audit := log)), Page([ModelError("", Text(LockedLater))]))
        case _ =>
          var log := LogFor(s.store.audit, req, u.id, Act2faFailed, "Invalid 2FA verification code.");
          Reply(s.(store := s.store.(users := users, audit := log)), Page([ModelError("", Text(CodeRejected))]))
  }

  /** The third wrong code in a row locks the account but is reported as a
      wrong code and logged as `2FAFailed`; `AccountLocked` and the lockout
      message come only with the next attempt inside the 15 minutes,
      whatever code it carries. */
  lemma LockIsReportedOneAttemptLate(s: State, req: Request, code: string, totp: TotpVerifier, sid: string,
                                     req2: Request, code2: string, sid2: string)
    requires CodeFieldValid(code) && CodeFieldValid(code2)
    requires PendingUser(s).Some? && !IsLockedOut(PendingUser(s).value, req.now)
    requires PendingUser(s).value.accessFailedCount == MaxFailedAccessAttempts - 1
    requires !totp(PendingUser(s).value.authenticatorKey, NormalizeCode(code), req.now)
    requires req.now <= req2.now <= req.now + DefaultLockoutTimeSpan
    ensures Post(s, req, code, totp, sid).response == Page([ModelError("", Text(CodeRejected))])
    ensures var t := Post(s, req, code, totp, sid).next;
      && PendingUser(t).Some? && IsLockedOut(PendingUser(t).value, req2.now)
      && Post(t, req2, code2, totp, sid2).response == Page([ModelError("", Text(LockedLater))])
  {
    var u := PendingUser(s).value;
    var v := AccessFailed(u, req.now);
    var t := Post(s, req, code, totp, sid).next;
    FindByIdUpdated(s.store.users, v);
    assert PendingUser(t) == Some(v);
  }
}
